=== FILE: README.md ===
# Multi-provider documentation site: provider selection and content model

The Karpenter documentation site renders one set of pages for several cloud providers
(`azure`, `aws`). A small layer of React components decides what a reader sees:

- **Site configuration** (`customFields`): a registry of provider records plus a default key.
- **Provider context** (`ProviderProvider`, `useProvider`): the reader's selection, restored
  from `localStorage` on mount and changed by `setProvider`, which accepts registered keys only.
- **Provider switcher**: a drop-down that keeps its own selection and writes the same browser
  state without validating the key.
- **Provider code block**: a code sample that goes through four stages in order:
  - an optional show/hide gate;
  - `{{attribute}}` substitution from the current provider's record;
  - removal or unwrapping of `# PROVIDER:<key>:START … # PROVIDER:<key>:END` regions;
  - a fixed table of AWS-to-Azure literal rewrites.
- **Provider variables**: three variants:
  - a dotted path read from the configuration with a `{path}` placeholder;
  - a dotted path read from the context with an own-property test and a `''` fallback;
  - a single name with a `{{name}}` placeholder.
- **Provider content**: children shown only when the current provider is in a comma-separated
  list (string form) or in an array (array form).
- **Dynamic sidebar**: shared entries followed by the current provider's own sections.

The Dafny modules follow that structure:

| module | models |
|---|---|
| `Wrappers` | `Option` and `Result` |
| `JsText` | the JavaScript string operations the components use: `\w+` runs, `indexOf`, `split`/`join`, `trim` with the JavaScript whitespace set, and global literal `replace` |
| `JsValue` | configuration values as `Str`/`Arr`/`Obj`; truthiness; own-property access `v[key]`; `String(v)` |
| `SiteConfig` | `customFields`, with the site's registry as a fixture |
| `Browser` | `localStorage`, the `document.body` attributes and dispatched events, as plain data |
| `ProviderContext`, `ProviderSwitcher` | the two selection stores |
| `ProviderCodeBlock` | the code-block pipeline |
| `CodeBlockExamples` | the code-block pipeline applied to the site's own registry and to worked examples |
| `ProviderVariableConfig`, `ProviderVariablePath`, `ProviderVariableName` | the three variable components |
| `ProviderContent`, `ProviderContentList` | the two content gates |
| `DynamicSidebar` | the sidebar hook |

Each regular expression of the code block is an explicit scanner over suffixes of the text.
Each scanner has a lexing view: pieces for the token scan, segments for the region scan.
Reassembling either view gives back the text, and that round trip is a lemma.

Three consequences of how the code is written deserve mention:

- Tokens are substituted before regions are filtered (`ProviderCodeBlock.tsx` lines 28-45).
  `CodeBlockExamples.TokenExpandsBeforeFiltering` shows a consequence: a token whose value
  is a whole region for another provider renders as nothing.
- The code block takes its current provider from the configured `defaultProvider`
  (`ProviderCodeBlock.tsx` line 14), not from the reader's selection.
- The switcher adopts stored and clicked keys without checking the registry.
  `ProviderSwitcher.StaleStoredKey` and `ProviderSwitcher.AcceptsUnregistered` show where it
  and the context diverge.

## Model

| member | source | states |
|---|---|---|
| SiteConfig.DefaultProvider | src/components/ProviderCodeBlock.tsx:14 | The current key is never empty. A non-empty configured default is used as given; a missing or empty one falls back to `azure`. |
| SiteConfig.KarpenterDefaultRegistered | docusaurus.config.ts:40-75 | With the site's configuration the default is `azure`, the `azure` and `aws` records are registered (present and truthy), and `gcp` is not. |
| JsValue.Member | src/components/ProviderCodeBlock.tsx:29 | Property access on an object is defined exactly for its own keys and gives that field. On an array or a string it is defined exactly for a canonical decimal index below the length, and gives the element or the one-character string at that index. |
| JsValue.ArrayElement | src/components/ProviderCodeBlock.tsx:29 | The canonical decimal index `i` of an array reads element `i`. |
| JsValue.StrArrayRoundTrip | src/components/ProviderCodeBlock.tsx:28-31 | `String()` of a non-empty array of comma-free strings splits back on commas into exactly those strings, so an array attribute substitutes as its comma-joined elements. |
| JsText.WordRun | src/components/ProviderCodeBlock.tsx:26 | How far greedy `\w+` reaches: every character before the result is a word character, and the next one (if any) is not. |
| JsText.WordRunOfWord | src/components/ProviderCodeBlock.tsx:26 | `\w+` applied to a word followed by a non-word character (or the end) takes exactly the word. |
| JsText.IndexOf | src/components/ProviderCodeBlock.tsx:35 | The lazy `[\s\S]*?` stops at the first occurrence: the result is an occurrence with none before it, and there is no result exactly when the pattern does not occur. |
| JsText.Split | src/components/ProviderVariable.tsx:16 | `split` gives at least one part, no part holds the separator, and joining the parts with the separator gives back the text. |
| JsText.SplitJoin | src/components/ProviderVariable.tsx:16 | Splitting the join of separator-free parts gives back exactly those parts. |
| JsText.TrimStartShape | src/components/ProviderContent/index.tsx:12 | `trimStart` removes a prefix made only of JavaScript whitespace and stops at a non-space character. |
| JsText.TrimEndShape | src/components/ProviderContent/index.tsx:12 | `trimEnd` removes a suffix made only of JavaScript whitespace and stops at a non-space character. |
| JsText.TrimPadded | src/components/ProviderContent/index.tsx:12 | Whitespace padding on either side never changes what `trim` returns. |
| JsText.ReplaceAllAbsent | src/components/ProviderCodeBlock.tsx:49-57 | A global replace of a pattern that does not occur leaves the text unchanged. |
| JsText.ReplaceAllAtFirst | src/components/ProviderCodeBlock.tsx:49-57 | A global replace copies the text up to the first occurrence, emits the replacement, and continues after the whole occurrence, so replaced text is not rescanned. |
| ProviderCodeBlock.TokenAt | src/components/ProviderCodeBlock.tsx:26 | A recognised token has a word as its name, and the text starts with exactly `{{name}}`. |
| ProviderCodeBlock.TokenAtToken | src/components/ProviderCodeBlock.tsx:26 | Every `{{word}}` is recognised as a token with exactly its own name, because `}` is not a word character. |
| ProviderCodeBlock.LexRoundTrip | src/components/ProviderCodeBlock.tsx:26-31 | The token scan loses nothing: reassembling its pieces gives back the code. |
| ProviderCodeBlock.SubstituteToken | src/components/ProviderCodeBlock.tsx:28-31 | A token at the front becomes the current record's attribute, converted to a string, when that attribute is truthy. A missing or empty attribute keeps the token verbatim. The rest of the code is substituted independently. |
| ProviderCodeBlock.SubstituteWithoutRecord | src/components/ProviderCodeBlock.tsx:29-30 | When the current provider has no record, substitution is the identity. |
| ProviderCodeBlock.SubstituteWithoutTokens | src/components/ProviderCodeBlock.tsx:26-31 | Code with no `{{word}}` anywhere is unchanged by substitution, whatever the record. |
| ProviderCodeBlock.SubstitutePlain | src/components/ProviderCodeBlock.tsx:26-31 | Text without `{` is copied through substitution, and what follows it is substituted on its own. |
| ProviderCodeBlock.StartKey | src/components/ProviderCodeBlock.tsx:35 | A recognised start marker has a word key, and the text starts with exactly that key's start marker. |
| ProviderCodeBlock.StartKeyOfMarker | src/components/ProviderCodeBlock.tsx:35 | Every start marker is recognised, with exactly its own key as the captured group. |
| ProviderCodeBlock.SectionAt | src/components/ProviderCodeBlock.tsx:35 | A region match is well formed: it has a word key and is closed by the first end marker repeating that key. The text begins with the matched region. |
| ProviderCodeBlock.SegmentsRoundTrip | src/components/ProviderCodeBlock.tsx:35-45 | The region scan loses nothing: reassembling its segments gives back the code. |
| ProviderCodeBlock.SegmentsWellFormed | src/components/ProviderCodeBlock.tsx:35 | Every region the scan finds is well formed (the backreference `\1` and the lazy body). |
| ProviderCodeBlock.FilterSection | src/components/ProviderCodeBlock.tsx:36-45 | A region `START(k) b END(k)` with no earlier `END(k)` in `b` is unwrapped when `k` is the current provider and deleted otherwise. Filtering then continues after it. |
| ProviderCodeBlock.FilterWithoutMarkers | src/components/ProviderCodeBlock.tsx:35-45 | Code with no `# PROVIDER:` anywhere passes the region filter unchanged. |
| ProviderCodeBlock.FilterSkip | src/components/ProviderCodeBlock.tsx:35-45 | Characters at which no region starts are copied one by one. |
| ProviderCodeBlock.MarkerKeys | src/components/ProviderCodeBlock.tsx:40-41 | A marker `# PROVIDER:<k>:<tag>` at the front has as its key exactly the word run after `# PROVIDER:`, followed by `:<tag>`, because `:` is not a word character. |
| ProviderCodeBlock.MarkerLength | src/components/ProviderCodeBlock.tsx:40-41 | `/# PROVIDER:\w+:<tag>\n?/` matches at the front exactly when the text begins with `# PROVIDER:`, a word `k`, `:` and the tag. The match then covers that marker plus one following newline when there is one. A bare `# PROVIDER:` or one followed by another tag is no match. |
| ProviderCodeBlock.MarkerLengthOfMarker | src/components/ProviderCodeBlock.tsx:40-41 | `# PROVIDER:\w+:<tag>\n?` matches a whole marker with a word key, together with the newline after it when there is one. |
| ProviderCodeBlock.RemoveSkip | src/components/ProviderCodeBlock.tsx:40-41 | The non-global replace copies every position where no marker of the tag begins. Text before the first match is kept whole, even if it holds markers with another tag or a bare `# PROVIDER:`. |
| ProviderCodeBlock.RemoveMarkerFront | src/components/ProviderCodeBlock.tsx:40-41 | A marker at the front is removed together with at most one newline after it, and the rest is kept. |
| ProviderCodeBlock.RemoveStartMarker | src/components/ProviderCodeBlock.tsx:40 | Unwrapping removes the region's start marker and at most one newline after it. |
| ProviderCodeBlock.RemoveEndMarker | src/components/ProviderCodeBlock.tsx:41 | Unwrapping removes the closing end marker whole. |
| ProviderCodeBlock.UnwrapPlainBody | src/components/ProviderCodeBlock.tsx:37-41 | A current-provider region whose body holds no `# PROVIDER:<word>:END` of any key shows exactly its body, minus one leading newline. Start markers inside the body, such as a nested region's, stay. |
| ProviderCodeBlock.RemoveForeignEnd | src/components/ProviderCodeBlock.tsx:41 | The non-global END replace removes the first end marker of any key, with one newline after it, even when the region's own end marker follows. |
| ProviderCodeBlock.StartNotEnd | src/components/ProviderCodeBlock.tsx:41 | No end marker begins a start marker, so the END replace never takes a start marker. |
| ProviderCodeBlock.StartMarkerEndFree | src/components/ProviderCodeBlock.tsx:41 | A start marker between two stretches of text without `#` contains no end marker of any key. |
| ProviderCodeBlock.UnwrapForeignEnd | src/components/ProviderCodeBlock.tsx:39-41 | For a body `b END(k2) c` with no end marker in `b`, unwrapping removes the foreign `END(k2)` with one newline after it and keeps the region's own end marker. `b` may hold start markers, as a nested region does, and `c` may hold anything. |
| ProviderCodeBlock.ForeignEndLeavesOwnEnd | src/components/ProviderCodeBlock.tsx:35-45 | Rendered for its own provider, `START(k1) b END(k2) c END(k1)` shows `b` and `c`, each without one leading newline, and then `END(k1)`. This holds when `b` has no end marker of any key and `c` has no `END(k1)`. |
| ProviderCodeBlock.UnwrapOwn | src/components/ProviderCodeBlock.tsx:38-41 | The intended unwrapping: the region's text is its own start marker, at most one newline, the result, and its own end marker, so the whole body is kept. |
| ProviderCodeBlock.UnwrapOwnAgrees | src/components/ProviderCodeBlock.tsx:38-41 | On a body with no end marker of any key, the intended and the written unwrapping agree. |
| ProviderCodeBlock.UnwrapOwnKeepsForeignEnd | src/components/ProviderCodeBlock.tsx:38-41 | On a body `b END(k2) c` with no end marker in `b`, the intended unwrapping keeps that marker and drops the region's own, while the written one does the opposite. |
| ProviderCodeBlock.EndKeyDetermined | src/components/ProviderCodeBlock.tsx:35 | An end marker's key is fixed by the text, so `\1` cannot match an end marker with a different key. |
| ProviderCodeBlock.EndIsNotStart | src/components/ProviderCodeBlock.tsx:35 | No region starts at an end marker. |
| ProviderCodeBlock.NoMatchingEnd | src/components/ProviderCodeBlock.tsx:35 | After `START(k1) b`, with no `END(k1)` in `b` or in what follows `END(k2)`, an `END(k2)` with another key does not close the region. |
| ProviderCodeBlock.UnclosedStartStays | src/components/ProviderCodeBlock.tsx:35-45 | A start marker that is never closed by its own key stays in the output as text. |
| ProviderCodeBlock.LoneEndStays | src/components/ProviderCodeBlock.tsx:35-45 | An end marker without a start marker stays in the output as text. |
| ProviderCodeBlock.HeadlessTextStays | src/components/ProviderCodeBlock.tsx:35-45 | Text without a marker head is copied up to the next `#`. |
| ProviderCodeBlock.UnclosedStartAndBodyStay | src/components/ProviderCodeBlock.tsx:35-45 | An unclosed start marker, followed by text with no `# PROVIDER:` anywhere in it, is kept verbatim together with that text. |
| ProviderCodeBlock.MismatchedMarkersStay | src/components/ProviderCodeBlock.tsx:35-45 | `START(k1) b END(k2) t` with different keys, no `# PROVIDER:` anywhere in `b` and no `END(k1)` anywhere in `t` keeps its markers and `b` verbatim, for every current provider. With a later `END(k1)` the whole stretch is one region instead. |
| ProviderCodeBlock.AzurePatternsNonEmpty | src/components/ProviderCodeBlock.tsx:50-57 | Every pattern of the rewrite table is non-empty. |
| ProviderCodeBlock.ApplyRewritesAbsent | src/components/ProviderCodeBlock.tsx:48-57 | Text holding none of a table's patterns passes through the table unchanged. |
| ProviderCodeBlock.RenderCodeBlock | src/components/ProviderCodeBlock.tsx:11-60 | The block is `null` exactly when `showForProvider` is set, non-empty and not the current provider. Otherwise it is shown in the given language, `yaml` by default. |
| ProviderCodeBlock.CodeBlockIdentity | src/components/ProviderCodeBlock.tsx:11-60 | A shown block whose code has no token, no marker head and no table pattern displays exactly the code as written. |
| ProviderCodeBlock.CodeBlockWithoutRecord | src/components/ProviderCodeBlock.tsx:14-60 | When the current provider has no record, the block is the filtered code, rewritten for that provider. |
| CodeBlockExamples.NewlineRegion | src/components/ProviderCodeBlock.tsx:35-45 | A region whose body starts with a newline and holds no `#` reduces to the body without that newline for its own provider. For any other provider it vanishes. |
| CodeBlockExamples.AwsRegionExample | src/components/ProviderCodeBlock.tsx:35-45 | `# PROVIDER:aws:START\nfoo\n# PROVIDER:aws:END` becomes `foo\n` for `aws` and the empty string for any other provider. |
| CodeBlockExamples.OtherRegionRemoved | src/components/ProviderCodeBlock.tsx:43-44 | A region for another provider whose body holds no `#` is removed whole. |
| CodeBlockExamples.ForeignEndRegion | src/components/ProviderCodeBlock.tsx:35-45 | A region whose body holds another key's end marker, each part on its own line, renders for its own provider as the two body lines followed by its own end marker. |
| CodeBlockExamples.NestedRegion | src/components/ProviderCodeBlock.tsx:35-45 | A region for `k1` with a region for `k2` nested in it, each marker on its own line, renders for `k1` with the inner start marker kept, the inner end marker and its newline removed, and the outer end marker kept. |
| CodeBlockExamples.NestedRegionExample | src/components/ProviderCodeBlock.tsx:35-45 | `# PROVIDER:aws:START\na\n# PROVIDER:azure:START\nb\n# PROVIDER:azure:END\nc\n# PROVIDER:aws:END` renders for `aws` as `a\n# PROVIDER:azure:START\nb\nc\n# PROVIDER:aws:END`. |
| CodeBlockExamples.ForeignEndExample | src/components/ProviderCodeBlock.tsx:35-45 | `# PROVIDER:aws:START\nx\n# PROVIDER:azure:END\ny\n# PROVIDER:aws:END` renders for `aws` as `x\ny\n# PROVIDER:aws:END`. |
| CodeBlockExamples.TableMatchesRegistry | src/components/ProviderCodeBlock.tsx:50-57 | Rows 1-3 of the table map the AWS instance-label keys of the registry to the Azure ones. Rows 7-8 map the AWS example zones to the Azure ones. |
| CodeBlockExamples.TablePatternsAbsent | src/components/ProviderCodeBlock.tsx:50-57 | Text with no `w` and no `"` holds none of the table's patterns. |
| CodeBlockExamples.PlainTextUntouched | src/components/ProviderCodeBlock.tsx:35-58 | Text with no `#`, `w` or `"` passes both the region filter and the rewrite table unchanged, for any provider. |
| CodeBlockExamples.TokenBecomesValue | src/components/ProviderCodeBlock.tsx:28-31 | A lone token whose attribute is a non-empty string becomes that string. |
| CodeBlockExamples.TokenLine | src/components/ProviderCodeBlock.tsx:28-58 | Plain text followed by a token renders as the text followed by the attribute's value. |
| CodeBlockExamples.NodeClassExample | src/components/ProviderCodeBlock.tsx:28-31 | With the site's configuration, a line such as `kind: {{nodeClassName}}` renders as `kind: AKSNodeClass`. The same holds after any prefix without `{`, `#`, `w` or `"`. |
| CodeBlockExamples.TokenExpandsBeforeFiltering | src/components/ProviderCodeBlock.tsx:28-45 | Because substitution runs first, a token whose value is another provider's whole region renders as nothing. The filter applied to the token alone would keep it. |
| Browser.SetItem | src/contexts/ProviderContext.tsx:45 | `localStorage.setItem` makes the key read back as the value; every other key reads as before, and the body and events are untouched. |
| Browser.SetAttribute | src/contexts/ProviderContext.tsx:46 | `setAttribute` sets exactly that body attribute; storage and events are untouched. |
| Browser.Dispatch | src/contexts/ProviderContext.tsx:49-52 | `dispatchEvent` appends exactly that event to the log; storage and the body are untouched. |
| Browser.Announce | src/contexts/ProviderContext.tsx:45-52 | A change stores the key under `karpenter-provider`, sets `data-provider` on the body and appends exactly one `provider-changed` event. Every other storage key is left alone. |
| ProviderContext.UseProvider | src/contexts/ProviderContext.tsx:12-18 | The hook fails with the documented message exactly when there is no enclosing provider; otherwise it returns the context value. |
| ProviderContext.Mount | src/contexts/ProviderContext.tsx:27-29 | The first render starts from the configured default (`azure` when none is configured) on the page as it is. |
| ProviderContext.Init | src/contexts/ProviderContext.tsx:31-40 | On mount, a non-empty stored key naming a registered provider becomes current and marks the body. Otherwise the selection stays and the body is marked with the default. Storage and events are untouched. |
| ProviderContext.SetProvider | src/contexts/ProviderContext.tsx:42-54 | An unregistered key changes nothing at all. A registered key becomes current, is stored, marks the body and is announced by exactly one event. |
| ProviderContext.StepKeepsRegistered | src/contexts/ProviderContext.tsx:31-54 | Neither the mount effect nor a selection can leave a registered current key for an unregistered one. |
| ProviderContext.RunFromRegistered | src/contexts/ProviderContext.tsx:31-54 | From a registered key, any sequence of mount effects and selections keeps the current key registered. |
| ProviderContext.RunKeepsRegistered | src/contexts/ProviderContext.tsx:26-54 | With a registered default, the current key is registered after any sequence of mount effects and selections, whatever the storage held. |
| ProviderContext.InitIdempotent | src/contexts/ProviderContext.tsx:31-40 | Running the mount effect a second time on the same storage changes nothing further. |
| ProviderContext.SelectionPersists | src/contexts/ProviderContext.tsx:31-54 | A registered key that was selected comes back after a reload, that is, a fresh mount on the same storage followed by the mount effect. |
| ProviderContext.KarpenterScenario | src/contexts/ProviderContext.tsx:26-54 | With the site's configuration, a stored `aws` is adopted on mount. A stored `gcp` leaves the reader on `azure`, and a later selection of `gcp` changes nothing. |
| ProviderSwitcher.Mount | src/components/ProviderSwitcher/index.tsx:6 | The first render starts from `azure`, whatever the configuration, on the page as it is. |
| ProviderSwitcher.Init | src/components/ProviderSwitcher/index.tsx:8-15 | On mount, a non-empty stored key becomes current; a missing or empty one gives `azure`. The current key marks the body, and storage and events are untouched. |
| ProviderSwitcher.HandleProviderChange | src/components/ProviderSwitcher/index.tsx:17-27 | A clicked key becomes current, is stored, marks the body and is announced by one event, whatever the key is. |
| ProviderSwitcher.Entries | src/components/ProviderSwitcher/index.tsx:29-51 | There is no menu exactly when no registry is configured. Otherwise there is one entry per registry key, in registry order, each naming a configured provider and marked active exactly when its key is the current one. |
| ProviderSwitcher.OneActiveEntry | src/components/ProviderSwitcher/index.tsx:48-51 | Exactly one entry is marked active when the current key is configured, and none otherwise; the active entry's key is the current key. |
| ProviderSwitcher.InitIdempotent | src/components/ProviderSwitcher/index.tsx:8-15 | Running the mount effect a second time on the same storage changes nothing further. |
| ProviderSwitcher.AgreesWithContext | src/components/ProviderSwitcher/index.tsx:17-27 | On a registered key, a click leaves the same selection and page as the context's `setProvider`. |
| ProviderSwitcher.AcceptsUnregistered | src/components/ProviderSwitcher/index.tsx:17-27 | On an unregistered key the switcher adopts the key while the context's `setProvider` ignores it. |
| ProviderSwitcher.StaleStoredKey | src/components/ProviderSwitcher/index.tsx:8-15 | A non-empty stored key that the site does not register is adopted by the switcher on mount, while the context stays on `azure`. |
| DynamicSidebar.ProviderSidebar | src/hooks/useDynamicSidebar.ts:6-61 | The shared entries always come first and unchanged. Two sections follow for `aws`, one for `azure`, and none for any other key. |
| DynamicSidebar.UseDynamicSidebar | src/hooks/useDynamicSidebar.ts:3-67 | The hook fails as `useProvider` does outside a provider. Otherwise it returns the sidebar for the context's provider, together with that provider. |
| DynamicSidebar.ProviderSectionsStayHome | src/hooks/useDynamicSidebar.ts:33-58 | Every document linked after the shared entries lies under the current provider's own directory. |
| DynamicSidebar.SharedEntriesAreNeutral | src/hooks/useDynamicSidebar.ts:7-30 | No shared entry links into the `aws/` or `azure/` directory. |
| ProviderVariableConfig.WalkAppend | src/components/ProviderVariable.tsx:19-26 | Walking a concatenated path is walking the first part, then the rest from where it ended. |
| ProviderVariableConfig.WalkFromNothing | src/components/ProviderVariable.tsx:19-26 | Once the walk has found nothing, no further segment finds anything. |
| ProviderVariableConfig.Display | src/components/ProviderVariable.tsx:13-29 | The shown value is always truthy. It is the value found at the path when that value is truthy; otherwise it is the fallback or the braced path `{path}`. |
| ProviderVariableConfig.DisplayNotFound | src/components/ProviderVariable.tsx:29 | For any provider, when the path finds nothing truthy, a non-empty fallback wins; without one the braced path `{path}` is shown. |
| ProviderVariableConfig.DisplayUnknownProvider | src/components/ProviderVariable.tsx:17-29 | When the default names no record, the result is the non-empty fallback, or `{path}` without one. |
| ProviderVariableConfig.DisplayEmptyIsMissing | src/components/ProviderVariable.tsx:29 | An empty-string value is treated as missing. Without a fallback it shows `{path}`. |
| ProviderVariableConfig.LabelExample | src/components/ProviderVariable.tsx:16-29 | With the site's configuration, `instanceLabels.family` shows `karpenter.azure.com/sku-family`. |
| ProviderVariablePath.WalksAgree | src/components/ProviderVariable/index.tsx:21-27 | The walk with the own-property test finds the same value as the configuration-based walk from the same record. |
| ProviderVariablePath.Display | src/components/ProviderVariable/index.tsx:9-29 | With no truthy record for the current provider the fallback is shown, `''` by default. Otherwise the value found at the path is shown, or the fallback when the path leads nowhere. |
| ProviderVariablePath.DisplaySingle | src/components/ProviderVariable/index.tsx:18-29 | A dot-free name that is a field of the current provider's record shows that field's value, whatever it is and whatever other fields the record has. |
| ProviderVariablePath.EmptyValueContrast | src/components/ProviderVariable/index.tsx:21-29 | An empty-string value is shown as it is here, while the configuration-based variant shows `{path}` for it. |
| ProviderVariablePath.TruthyValueAgreement | src/components/ProviderVariable/index.tsx:12-29 | When the context's provider is the configured default and the path finds a truthy value, both dotted-path variants show the same thing. |
| ProviderVariableName.Display | src/components/ProviderVariable/ProviderVariable.tsx:11 | The shown value is always truthy. It is the record's attribute when that is truthy, and `{{name}}` otherwise. |
| ProviderVariableName.AgreesWithCodeBlock | src/components/ProviderVariable/ProviderVariable.tsx:11 | For a word name, the inline variable shows exactly what the code block substitutes for `{{name}}` with the same record. |
| ProviderContent.Render | src/components/ProviderContent/index.tsx:12-15 | The children are shown, unchanged, exactly when the current provider is one of the trimmed comma-separated entries. |
| ProviderContent.TrimmedAt | src/components/ProviderContent/index.tsx:12 | The trimmed list has one entry per original entry, each the trim of its original. |
| ProviderContent.JoinedList | src/components/ProviderContent/index.tsx:12 | Comma-joined comma-free entries are read back as those entries, trimmed. |
| ProviderContent.ShownIffListed | src/components/ProviderContent/index.tsx:12-15 | For comma-joined entries, the children are shown if and only if some entry trims to the current provider. |
| ProviderContent.PaddingIrrelevant | src/components/ProviderContent/index.tsx:12-13 | Whitespace around the entries does not change the decision. |
| ProviderContent.OrderAndRepetitionIrrelevant | src/components/ProviderContent/index.tsx:13 | Two lists with the same set of trimmed entries decide alike, whatever their order or repetitions. |
| ProviderContent.EmptyEntryIrrelevant | src/components/ProviderContent/index.tsx:12-13 | An extra empty entry (as in `aws,,azure`) does not change the decision for a non-empty provider. |
| ProviderContentList.Render | src/components/ProviderContent/ProviderContent.tsx:12-20 | The children are shown, unchanged, exactly when the current provider is in the array, or in the trimmed comma-separated entries of a string. |
| ProviderContentList.TextAgrees | src/components/ProviderContent/ProviderContent.tsx:12-14 | Given a string, this variant decides exactly as the string-only one. |
| ProviderContentList.ListAgreesWithJoined | src/components/ProviderContent/ProviderContent.tsx:12-14 | An array of trimmed, comma-free keys decides as the same keys written as one comma-separated string. |
| ProviderContentList.ListEntriesNotTrimmed | src/components/ProviderContent/ProviderContent.tsx:12-14 | Array entries are not trimmed: a whitespace-padded key in an array hides the children, while the same text as a string shows them. |

## Left out

- React rendering is not modelled: elements, `<CodeBlock>` and `<code>` wrappers, and re-renders. Each component's output is the value it would render, or `None` for `null`.
- React state and effect timing are not modelled. The mount effect and every click are explicit transitions (`Init`, `SetProvider`, `HandleProviderChange`, `Run`) applied in the order given.
- `localStorage`, `document.body` and `window.dispatchEvent` are plain data (`Browser.Page`). Storage failures and event listeners are not modelled.
- The switcher's button label and icon, and each entry's label and icon, are presentation only. `ProviderSwitcher.Entries` models each entry's key and active flag.
- `Object.entries` lists string keys in insertion order, with integer-like keys first in ascending order. The model's registry is a map and does not record insertion order, so `ProviderSwitcher.Entries` takes the key order as a parameter. `SiteConfig.KarpenterOrder` gives the site's order, `azure` then `aws`.
- Values are strings, arrays and objects only. Numbers, booleans and `null` do not occur in the site's configuration.
- SiteConfig.Registered: it looks up only the registry's own keys. In JavaScript, `providers[key]` (`ProviderContext.tsx` lines 34 and 43) also finds keys the registry object inherits, such as `toString`, `constructor` and `__proto__`, and their values are truthy. So a stored or selected `toString` is adopted by the component, while `ProviderContext.Init` and `ProviderContext.SetProvider` ignore it. `SiteConfig.Record`, `ProviderContext.StepKeepsRegistered`, `ProviderContext.RunFromRegistered`, `ProviderContext.RunKeepsRegistered` and `ProviderContext.SelectionPersists` likewise speak about own registry keys only. Inherited keys reach these stores only through a tampered `localStorage` or a caller passing such a key.
- `JsValue.Member` and the `in` test do not model own non-index properties, such as an array's or a string's `length`. They do not model inherited properties such as `toString` either. For example, a path ending in `.length` on an array shows the array's length in `ProviderVariable/index.tsx`, while the model shows the fallback.
- Strings are sequences of code points. UTF-16 surrogate pairs are not modelled; `\w`, `\s` and `trim` only look at characters that are single code units.
- `JsText.ReplaceAll` requires a non-empty pattern; JavaScript's empty-pattern behaviour is not modelled. Every pattern of the rewrite table is non-empty (`ProviderCodeBlock.AzurePatternsNonEmpty`).
- ProviderVariableConfig.Display: when nothing truthy is found, its own contract says only that the result is the fallback or `{path}`. `ProviderVariableConfig.DisplayNotFound` decides which for every provider and path: a non-empty fallback, otherwise `{path}`.
- The rest of the site is not part of this model: pages, theme overrides, the navbar, search, MDX registration, `sidebars.ts`, and the older `src/components/ProviderSwitcher.tsx`.

## Findings

Each region for the current provider is unwrapped by two non-global replaces, and the comment above them says they remove the markers. The second replace removes the *first* `# PROVIDER:\w+:END` in the matched region, whatever its key. A region's body may hold an end marker for another key, because the section pattern only stops at an end marker repeating its own key. In that case the foreign marker is removed and the region's own end marker stays in the output. A nested region for another key is the usual way this happens: its start marker stays and its end marker goes.

| source | as written | input that shows it | evidently intended | confidence | as-written member | corrected member |
|---|---|---|---|---|---|---|
| src/components/ProviderCodeBlock.tsx:38-41 | the END replace removes the first end marker of any key inside the region | `# PROVIDER:aws:START\nx\n# PROVIDER:azure:END\ny\n# PROVIDER:aws:END` with current `aws` renders as `x\ny\n# PROVIDER:aws:END` | the region's own start and end markers are removed and the body is kept whole | medium, not executed | ProviderCodeBlock.UnwrapForeignEnd, ProviderCodeBlock.ForeignEndLeavesOwnEnd, CodeBlockExamples.ForeignEndExample, CodeBlockExamples.NestedRegionExample | ProviderCodeBlock.UnwrapOwn, ProviderCodeBlock.UnwrapOwnAgrees, ProviderCodeBlock.UnwrapOwnKeepsForeignEnd |

The rendering pipeline (`FilterSections`, `RenderCodeBlock`) keeps the unwrapping as written, because it describes what the site displays. `UnwrapOwn` is the corrected unwrapping:
- its contract proves that only the region's own markers and at most one newline are removed;
- `UnwrapOwnAgrees` shows that it agrees with the written unwrapping on every body without end markers, which covers every region `ProviderCodeBlock.UnwrapPlainBody` describes.

=== FILE: browser.dfy ===
/** The browser state the provider components touch, as plain data: `localStorage`, the
    attributes of `document.body`, and the log of events dispatched on `window`. */
module Browser {
  import opened Wrappers

  /** `new CustomEvent(name, { detail: { provider } })`. */
  datatype DomEvent = CustomEvent(name: string, provider: string)

  datatype Page = Page(storage: map<string, string>, bodyAttributes: map<string, string>, events: seq<DomEvent>)

  /** A component's selected provider key together with the page it writes to. */
  datatype Selection = Selection(current: string, page: Page)

  /** The `localStorage` key holding the reader's provider. */
  const StorageKey: string := "karpenter-provider"

  /** The `document.body` attribute the stylesheets key on. */
  const BodyAttribute: string := "data-provider"

  /** The name of the event announcing a new provider. */
  const ProviderChanged: string := "provider-changed"

  /** `localStorage.getItem(key)`; `None` is `null`. */
  function GetItem(page: Page, key: string): Option<string> {
    if key in page.storage then Some(page.storage[key]) else None
  }

  /** `localStorage.setItem(key, value)`. */
  function SetItem(page: Page, key: string, value: string): (r: Page)
    ensures GetItem(r, key) == Some(value)
    ensures forall k :: k != key ==> GetItem(r, k) == GetItem(page, k)
    ensures r.bodyAttributes == page.bodyAttributes && r.events == page.events
  {
    page.(storage := page.storage[key := value])
  }

  /** `document.body.setAttribute(name, value)`. */
  function SetAttribute(page: Page, name: string, value: string): (r: Page)
    ensures r.bodyAttributes == page.bodyAttributes[name := value]
    ensures r.storage == page.storage && r.events == page.events
  {
    page.(bodyAttributes := page.bodyAttributes[name := value])
  }

  /** `window.dispatchEvent(e)`: the event is appended to the log. */
  function Dispatch(page: Page, e: DomEvent): (r: Page)
    ensures r.events == page.events + [e]
    ensures r.storage == page.storage && r.bodyAttributes == page.bodyAttributes
  {
    page.(events := page.events + [e])
  }

  /** What both provider pickers do on a change: store the key, mark the body with it and
      announce it. */
  function Announce(page: Page, provider: string): (r: Page)
    ensures GetItem(r, StorageKey) == Some(provider)
    ensures forall k :: k != StorageKey ==> GetItem(r, k) == GetItem(page, k)
    ensures r.bodyAttributes == page.bodyAttributes[BodyAttribute := provider]
    ensures r.events == page.events + [CustomEvent(ProviderChanged, provider)]
  {
    Dispatch(SetAttribute(SetItem(page, StorageKey, provider), BodyAttribute, provider),
             CustomEvent(ProviderChanged, provider))
  }
}

=== FILE: code_block_examples.dfy ===
/** The code-block pipeline on the Karpenter documentation's own registry. */
module CodeBlockExamples {
  import opened Wrappers
  import opened JsText
  import opened JsValue
  import opened SiteConfig
  import opened ProviderCodeBlock

  /** A newline in front of text without `#` adds no `#`. */
  lemma NewlineNoHash(b: string)
    requires '#' !in b
    ensures '#' !in "\n" + b
  {
    assert forall i :: 0 <= i < |"\n" + b| ==> ("\n" + b)[i] == if i == 0 then '\n' else b[i - 1];
  }

  /** A region whose body opens with a newline and holds no `#`: deleted for another provider,
      reduced to its body without that newline for its own. */
  lemma {:induction false} NewlineRegion(current: string, k: string, b: string)
    requires IsWord(k) && '#' !in b
    ensures FilterSections(current, StartMarker(k) + ("\n" + b) + EndMarker(k))
      == (if k == current then b else "")
  {
    var body := "\n" + b;
    NewlineNoHash(b);
    MarkerHashes(k);
    AbsentByChar(EndMarker(k), body, '#');
    AbsentByChar(MarkerHead, body, '#');
    FilterSection(current, k, body, "");
    assert StartMarker(k) + body + EndMarker(k) + "" == StartMarker(k) + body + EndMarker(k);
    assert FilterSections(current, "") == "";
    if k == current {
      HeadlessEndFree(body);
      UnwrapPlainBody(k, body);
      assert DropNewline(body) == b;
    }
  }

  /** `# PROVIDER:aws:START\nfoo\n# PROVIDER:aws:END` becomes `foo\n` for `aws` and vanishes
      for every other provider, `azure` included. */
  lemma {:induction false} AwsRegionExample(current: string)
    ensures FilterSections(current, StartMarker("aws") + "\nfoo\n" + EndMarker("aws"))
      == (if current == "aws" then "foo\n" else "")
  {
    assert IsWord("aws");
    assert "\nfoo\n" == "\n" + "foo\n";
    NewlineRegion(current, "aws", "foo\n");
  }

  /** A region for `k1` whose body holds an end marker for another key `k2`, each part on
      its own line: rendered for `k1`, the foreign end marker goes and the region's own end
      marker stays. */
  lemma {:induction false} ForeignEndRegion(k1: string, k2: string, b: string, c: string)
    requires IsWord(k1) && IsWord(k2) && k1 != k2 && '#' !in b && '#' !in c
    ensures FilterSections(k1, StartMarker(k1) + (("\n" + b) + EndMarker(k2) + ("\n" + c)) + EndMarker(k1))
      == b + c + EndMarker(k1)
  {
    var b', c' := "\n" + b, "\n" + c;
    NewlineNoHash(b);
    NewlineNoHash(c);
    MarkerHashes(k1);
    AbsentByChar(MarkerHead, b', '#');
    HeadlessEndFree(b');
    AbsentByChar(EndMarker(k1), c', '#');
    ForeignEndLeavesOwnEnd(k1, k2, b', c', []);
    var region := StartMarker(k1) + (b' + EndMarker(k2) + c') + EndMarker(k1);
    assert region + [] == region;
    assert FilterSections(k1, []) == [];
    assert DropNewline(b') == b && DropNewline(c') == c;
    assert b + c + EndMarker(k1) + [] == b + c + EndMarker(k1);
  }

  /** `# PROVIDER:aws:START\nx\n# PROVIDER:azure:END\ny\n# PROVIDER:aws:END` shown for
      `aws` is `x\ny\n# PROVIDER:aws:END`. */
  lemma {:induction false} ForeignEndExample()
    ensures FilterSections("aws", StartMarker("aws") + ("\nx\n" + EndMarker("azure") + "\ny\n") + EndMarker("aws"))
      == "x\n" + "y\n" + EndMarker("aws")
  {
    assert IsWord("aws") && IsWord("azure");
    assert "\nx\n" == "\n" + "x\n" && "\ny\n" == "\n" + "y\n";
    ForeignEndRegion("aws", "azure", "x\n", "y\n");
  }

  /** A region for `k1` with a region for `k2` nested inside it, each marker on its own
      line: rendered for `k1`, the inner start marker stays, the inner end marker goes with
      its newline, and the outer end marker stays. */
  lemma {:induction false} NestedRegion(k1: string, k2: string, a: string, b: string, c: string)
    requires IsWord(k1) && IsWord(k2) && k1 != k2 && '#' !in a && '#' !in b && '#' !in c
    ensures FilterSections(k1, StartMarker(k1)
        + ("\n" + a + StartMarker(k2) + ("\n" + b) + EndMarker(k2) + ("\n" + c)) + EndMarker(k1))
      == a + StartMarker(k2) + ("\n" + b) + c + EndMarker(k1)
  {
    var a', b', c' := "\n" + a, "\n" + b, "\n" + c;
    var inner := a' + StartMarker(k2) + b';
    var region := StartMarker(k1) + (inner + EndMarker(k2) + c') + EndMarker(k1);
    assert EndFree(inner) by {
      NewlineNoHash(a);
      NewlineNoHash(b);
      StartMarkerEndFree(k2, a', b');
    }
    assert !Occurs(EndMarker(k1), c') by {
      NewlineNoHash(c);
      MarkerHashes(k1);
      AbsentByChar(EndMarker(k1), c', '#');
    }
    assert FilterSections(k1, region) == DropNewline(inner) + DropNewline(c') + EndMarker(k1) by {
      ForeignEndLeavesOwnEnd(k1, k2, inner, c', []);
      assert region + [] == region;
      assert FilterSections(k1, []) == [];
      assert DropNewline(inner) + DropNewline(c') + EndMarker(k1) + []
        == DropNewline(inner) + DropNewline(c') + EndMarker(k1);
    }
    assert DropNewline(inner) == a + StartMarker(k2) + b' by {
      assert inner == "\n" + (a + StartMarker(k2) + b');
    }
    assert DropNewline(c') == c;
  }

  /** `# PROVIDER:aws:START\na\n# PROVIDER:azure:START\nb\n# PROVIDER:azure:END\nc\n# PROVIDER:aws:END`
      shown for `aws` is `a\n# PROVIDER:azure:START\nb\nc\n# PROVIDER:aws:END`. */
  lemma {:induction false} NestedRegionExample()
    ensures FilterSections("aws", StartMarker("aws")
        + ("\n" + "a\n" + StartMarker("azure") + ("\n" + "b\n") + EndMarker("azure") + ("\n" + "c\n"))
        + EndMarker("aws"))
      == "a\n" + StartMarker("azure") + ("\n" + "b\n") + "c\n" + EndMarker("aws")
  {
    assert IsWord("aws") && IsWord("azure");
    NestedRegion("aws", "azure", "a\n", "b\n", "c\n");
  }

  /** Rows 1-3 of the table turn the AWS label keys of the registry into the Azure ones, and
      rows 7-8 its example zones: the table and the registry describe the same mapping. */
  lemma TableMatchesRegistry()
    ensures var awsLabels := AwsRecord.fields["instanceLabels"].fields;
      var azureLabels := AzureRecord.fields["instanceLabels"].fields;
      && AzureRewrites[0] == Rewrite(awsLabels["category"].s, azureLabels["family"].s)
      && AzureRewrites[1] == Rewrite(awsLabels["family"].s, azureLabels["name"].s)
      && AzureRewrites[2] == Rewrite(awsLabels["generation"].s, azureLabels["version"].s)
    ensures AzureRewrites[6] == Rewrite(AwsRecord.fields["zones"].items[0].s, AzureRecord.fields["zones"].items[0].s)
    ensures AzureRewrites[7] == Rewrite(AwsRecord.fields["zones"].items[1].s, AzureRecord.fields["zones"].items[1].s)
  {
  }

  /** Text free of `#`, `w` and `"` passes the section filter and the table untouched: it
      holds no marker and none of the table's patterns. */
  lemma {:induction false} PlainTextUntouched(current: string, a: string)
    requires '#' !in a && 'w' !in a && '"' !in a
    ensures FilterSections(current, a) == a
    ensures RewriteForProvider(current, a) == a
  {
    AbsentByChar(MarkerHead, a, '#');
    FilterWithoutMarkers(current, a);
    TablePatternsAbsent(a);
    AzurePatternsNonEmpty();
    ApplyRewritesAbsent(AzureRewrites, a);
  }

  /** Every pattern of the table contains a `w` or a `"`. */
  lemma {:induction false} TablePatternsAbsent(a: string)
    requires 'w' !in a && '"' !in a
    ensures forall i :: 0 <= i < |AzureRewrites| ==> !Occurs(AzureRewrites[i].pattern, a)
  {
    forall i | 0 <= i < |AzureRewrites|
      ensures !Occurs(AzureRewrites[i].pattern, a)
    {
      RowPatternAbsent(i, a);
    }
  }

  lemma {:induction false} RowPatternAbsent(i: nat, a: string)
    requires i < |AzureRewrites| && 'w' !in a && '"' !in a
    ensures !Occurs(AzureRewrites[i].pattern, a)
  {
    var p := AzureRewrites[i].pattern;
    if 3 <= i <= 5 {
      assert p[1] == '"';
      AbsentByChar(p, a, '"');
    } else if i <= 2 {
      assert p[15] == 'w';
      AbsentByChar(p, a, 'w');
    } else {
      assert p[3] == 'w';
      AbsentByChar(p, a, 'w');
    }
  }

  /** A line of plain text followed by one token that the current provider's record defines
      as a non-empty string: the token becomes that string and nothing else changes. */
  lemma {:induction false} TokenLine(cf: CustomFields, a: string, id: string, v: string)
    requires IsWord(id) && v != ""
    requires var record := Record(Providers(cf), DefaultProvider(cf));
      record.Some? && Member(record.value, id) == Some(Str(v))
    requires '{' !in a
    requires '#' !in a + v && 'w' !in a + v && '"' !in a + v
    ensures RenderCodeBlock(cf, None, a + TokenText(id), None) == Some(CodeBlock("yaml", a + v))
  {
    var current := DefaultProvider(cf);
    var record := Record(Providers(cf), current);
    SubstitutePlain(record, a, TokenText(id));
    SubstituteToken(record, id, []);
    assert TokenText(id) + [] == TokenText(id);
    assert Substitute(record, []) == [];
    assert ToJsString(Str(v)) == v;
    assert Substitute(record, TokenText(id)) == v + [];
    assert Substitute(record, a + TokenText(id)) == a + v;
    PlainTextUntouched(current, a + v);
    assert !Hidden(None, current);
  }

  /** With the site's configuration, a line such as `kind: {{nodeClassName}}` is shown as
      `kind: AKSNodeClass` in a YAML block: the token becomes the Azure record's value, and
      a prefix that opens no token, no region and no table row is kept as it is. */
  lemma {:induction false} NodeClassExample(prefix: string)
    requires '{' !in prefix && '#' !in prefix && 'w' !in prefix && '"' !in prefix
    ensures RenderCodeBlock(KarpenterFields, None, prefix + TokenText("nodeClassName"), None)
      == Some(CodeBlock("yaml", prefix + "AKSNodeClass"))
  {
    var id, v := "nodeClassName", "AKSNodeClass";
    assert IsWord(id) && v != "" by {
      assert forall i :: 0 <= i < |id| ==> IsWordChar(id[i]);
    }
    assert '#' !in prefix + v && 'w' !in prefix + v && '"' !in prefix + v by {
      assert forall i :: 0 <= i < |prefix + v| ==> (prefix + v)[i] == if i < |prefix| then prefix[i] else v[i - |prefix|];
    }
    assert Record(Providers(KarpenterFields), DefaultProvider(KarpenterFields)) == Some(AzureRecord) by {
      KarpenterDefaultRegistered();
    }
    assert Member(AzureRecord, id) == Some(Str(v));
    TokenLine(KarpenterFields, prefix, id, v);
  }

  /** Substitution runs before the section filter: a token whose value is a whole region for
      another provider disappears with that region, although the filter alone would have kept
      the token as written. */
  lemma {:induction false} TokenExpandsBeforeFiltering(cf: CustomFields, id: string, k: string, b: string)
    requires IsWord(id) && IsWord(k) && '#' !in b && k != DefaultProvider(cf)
    requires var record := Record(Providers(cf), DefaultProvider(cf));
      record.Some? && Member(record.value, id) == Some(Str(StartMarker(k) + b + EndMarker(k)))
    ensures RenderCodeBlock(cf, None, TokenText(id), None) == Some(CodeBlock("yaml", ""))
    ensures FilterSections(DefaultProvider(cf), TokenText(id)) == TokenText(id)
  {
    var current := DefaultProvider(cf);
    var region := StartMarker(k) + b + EndMarker(k);
    TokenBecomesValue(Record(Providers(cf), current), id, region);
    OtherRegionRemoved(current, k, b);
    PlainTextUntouched(current, []);
    assert !Hidden(None, current);
    TokenWithoutHash(id);
    AbsentByChar(MarkerHead, TokenText(id), '#');
    FilterWithoutMarkers(current, TokenText(id));
  }

  /** A token alone is replaced by its non-empty string value. */
  lemma {:induction false} TokenBecomesValue(record: Option<Value>, id: string, v: string)
    requires IsWord(id) && v != []
    requires record.Some? && Member(record.value, id) == Some(Str(v))
    ensures Substitute(record, TokenText(id)) == v
  {
    SubstituteToken(record, id, []);
    assert TokenText(id) + [] == TokenText(id);
    assert Substitute(record, []) == [];
    assert ToJsString(Str(v)) == v;
    assert v + [] == v;
  }

  /** A region for another provider with no `#` in its body is removed whole. */
  lemma {:induction false} OtherRegionRemoved(current: string, k: string, b: string)
    requires IsWord(k) && '#' !in b && k != current
    ensures FilterSections(current, StartMarker(k) + b + EndMarker(k)) == []
  {
    var region := StartMarker(k) + b + EndMarker(k);
    MarkerHashes(k);
    AbsentByChar(EndMarker(k), b, '#');
    FilterSection(current, k, b, []);
    assert region + [] == region;
    assert FilterSections(current, []) == [];
  }

  /** A token is made of braces and word characters only. */
  lemma {:induction false} TokenWithoutHash(id: string)
    requires IsWord(id)
    ensures '#' !in TokenText(id)
  {
    forall i | 0 <= i < |TokenText(id)| ensures TokenText(id)[i] != '#' {
      if 2 <= i < 2 + |id| {
        assert TokenText(id)[i] == id[i - 2];
      }
    }
  }
}

=== FILE: dynamic_sidebar.dfy ===
/** `src/hooks/useDynamicSidebar.ts`: the navigation tree for the current provider: three
    shared entries, followed by the sections only that provider's readers see. */
module DynamicSidebar {
  import opened Wrappers
  import opened ProviderContext

  /** A sidebar entry; `title` is the entry's `label`. */
  datatype SidebarItem =
    | Doc(id: string, title: string)
    | Category(title: string, items: seq<string>)

  /** What the hook returns. */
  datatype DynamicSidebarValue = DynamicSidebarValue(dynamicSidebar: seq<SidebarItem>, currentProvider: string)

  /** The entries every provider shows, in order. */
  const BaseSidebar: seq<SidebarItem> := [
    Doc("intro", "Introduction"),
    Category("Getting Started", ["getting-started/quickstart"]),
    Category("Concepts", ["concepts/nodepools", "concepts/nodeclasses", "concepts/scheduling", "concepts/disruption"])
  ]

  const AwsSections: seq<SidebarItem> := [
    Category("Tasks", ["aws/tasks/managing-amis"]),
    Category("Upgrading", ["aws/upgrading/upgrade-guide"])
  ]

  const AzureSections: seq<SidebarItem> := [
    Category("Azure Specific", ["azure/nap-vs-self-hosted"])
  ]

  /** `getProviderSpecificSidebar()`: the shared entries first and unchanged, then two sections
      for `"aws"`, one for `"azure"`, none for any other key. */
  function ProviderSidebar(provider: string): (r: seq<SidebarItem>)
    ensures |r| >= |BaseSidebar| && r[..|BaseSidebar|] == BaseSidebar
    ensures provider == "aws" ==> r[|BaseSidebar|..] == AwsSections
    ensures provider == "azure" ==> r[|BaseSidebar|..] == AzureSections
    ensures provider != "aws" && provider != "azure" ==> r == BaseSidebar
  {
    if provider == "aws" then BaseSidebar + AwsSections
    else if provider == "azure" then BaseSidebar + AzureSections
    else BaseSidebar
  }

  /** `useDynamicSidebar()`: fails as `useProvider` does outside a provider; otherwise the
      sidebar for the context's provider, together with that provider. */
  function UseDynamicSidebar(context: Option<ContextValue>): (r: Result<DynamicSidebarValue, string>)
    ensures context.None? <==> r == Failure(OutsideProvider)
    ensures r.Success? ==> r.value.currentProvider == context.value.currentProvider
    ensures r.Success? ==> r.value.dynamicSidebar == ProviderSidebar(context.value.currentProvider)
  {
    match UseProvider(context)
    case Failure(e) => Failure(e)
    case Success(c) => Success(DynamicSidebarValue(ProviderSidebar(c.currentProvider), c.currentProvider))
  }

  /** The documents a category or doc links to. */
  function Links(item: SidebarItem): seq<string> {
    match item
    case Doc(id, _) => [id]
    case Category(_, items) => items
  }

  /** Every document past the shared entries lives under the current provider's directory:
      a reader is never sent to another provider's pages. */
  lemma {:induction false} ProviderSectionsStayHome(provider: string)
    ensures var r := ProviderSidebar(provider);
      forall i, j :: |BaseSidebar| <= i < |r| && 0 <= j < |Links(r[i])| ==>
        provider + "/" <= Links(r[i])[j]
  {
    var r := ProviderSidebar(provider);
    if provider == "aws" {
      assert r[3] == AwsSections[0] && r[4] == AwsSections[1];
      assert "aws/" <= "aws/tasks/managing-amis";
      assert "aws/" <= "aws/upgrading/upgrade-guide";
    } else if provider == "azure" {
      assert r[3] == AzureSections[0];
      assert "azure/" <= "azure/nap-vs-self-hosted";
    }
  }

  /** No shared entry links into a provider directory. */
  lemma {:induction false} SharedEntriesAreNeutral(provider: string)
    requires provider == "aws" || provider == "azure"
    ensures forall i, j :: 0 <= i < |BaseSidebar| && 0 <= j < |Links(BaseSidebar[i])| ==>
      !(provider + "/" <= Links(BaseSidebar[i])[j])
  {
    forall i, j | 0 <= i < |BaseSidebar| && 0 <= j < |Links(BaseSidebar[i])|
      ensures !(provider + "/" <= Links(BaseSidebar[i])[j])
    {
      var d := Links(BaseSidebar[i])[j];
      assert d[0] in {'i', 'g', 'c'};
    }
  }
}

=== FILE: js_text.dfy ===
/** String scanning with JavaScript's meaning of the character classes, on `seq<char>`.
    Each regular expression of the site is rebuilt from these pieces as an explicit
    left-to-right scanner. */
module JsText {
  import opened Wrappers

  /** `\w` of a JavaScript regular expression without the `u` or `i` flag: `[A-Za-z0-9_]`. */
  predicate IsWordChar(c: char) {
    ('a' <= c <= 'z') || ('A' <= c <= 'Z') || ('0' <= c <= '9') || c == '_'
  }

  /** What `\w+` matches: one or more word characters. */
  predicate IsWord(w: string) {
    |w| > 0 && forall i :: 0 <= i < |w| ==> IsWordChar(w[i])
  }

  /** Length of the longest prefix of word characters, i.e. how far a greedy `\w*` reaches. */
  function WordRun(s: string): (n: nat)
    ensures n <= |s|
    ensures forall i :: 0 <= i < n ==> IsWordChar(s[i])
    ensures n == |s| || !IsWordChar(s[n])
  {
    if s == [] || !IsWordChar(s[0]) then 0 else 1 + WordRun(s[1..])
  }

  /** A word followed by a non-word character (or the end) is exactly what `\w+` takes. */
  lemma {:induction false} WordRunOfWord(w: string, t: string)
    requires IsWord(w)
    requires t == [] || !IsWordChar(t[0])
    ensures WordRun(w + t) == |w|
  {
    if |w| > 1 {
      assert (w + t)[1..] == w[1..] + t;
      WordRunOfWord(w[1..], t);
    } else {
      assert (w + t)[1..] == t;
    }
  }

  /** `pat` occurs in `s` starting at index `i`. */
  predicate OccursAt(s: string, pat: string, i: nat) {
    i + |pat| <= |s| && s[i..i + |pat|] == pat
  }

  /** `pat` occurs somewhere in `s`. */
  predicate Occurs(pat: string, s: string) {
    exists i: nat :: i <= |s| && OccursAt(s, pat, i)
  }

  /** A pattern holding a character the text lacks does not occur in it. */
  lemma AbsentByChar(pat: string, s: string, c: char)
    requires c in pat && c !in s
    ensures !Occurs(pat, s)
  {
    var j :| 0 <= j < |pat| && pat[j] == c;
    forall i: nat | i <= |s|
      ensures !OccursAt(s, pat, i)
    {
      if i + |pat| <= |s| {
        assert s[i..i + |pat|][j] == s[i + j];
      }
    }
  }

  /** An occurrence in a suffix is an occurrence in the whole string, shifted. */
  lemma OccursAtShift(s: string, pat: string, i: nat)
    requires |s| > 0
    ensures OccursAt(s[1..], pat, i) <==> OccursAt(s, pat, i + 1)
  {
    if i + 1 + |pat| <= |s| {
      assert s[1..][i..i + |pat|] == s[i + 1..i + 1 + |pat|];
    }
  }

  /** The first occurrence of `pat` in `s`: what a lazy `[\s\S]*?` followed by `pat` stops at. */
  function IndexOf(s: string, pat: string): (r: Option<nat>)
    ensures r.Some? ==> OccursAt(s, pat, r.value)
    ensures r.Some? ==> forall j: nat :: j < r.value ==> !OccursAt(s, pat, j)
    ensures r.None? ==> !Occurs(pat, s)
    decreases |s|
  {
    if pat <= s then Some(0)
    else if s == [] then None
    else
      var rest := IndexOf(s[1..], pat);
      assert !OccursAt(s, pat, 0) by {
        assert |pat| <= |s| ==> s[0..|pat|] == s[..|pat|];
      }
      assert forall j: nat :: OccursAt(s, pat, j) ==> j > 0 && OccursAt(s[1..], pat, j - 1) by {
        forall j: nat | OccursAt(s, pat, j) ensures j > 0 && OccursAt(s[1..], pat, j - 1) {
          OccursAtShift(s, pat, j - 1);
        }
      }
      assert forall j: nat :: OccursAt(s[1..], pat, j) ==> OccursAt(s, pat, j + 1) by {
        forall j: nat | OccursAt(s[1..], pat, j) ensures OccursAt(s, pat, j + 1) {
          OccursAtShift(s, pat, j);
        }
      }
      match rest
      case Some(i) => Some(i + 1)
      case None => None
  }

  /** A text is its prefix followed by the rest. */
  lemma PrefixRest(a: string, s: string)
    requires a <= s
    ensures s == a + s[|a|..]
  {
  }

  /** Concatenation is associative; stated once so that proofs can cite it instead of
      rediscovering it on long literals. */
  lemma Assoc(a: string, b: string, c: string)
    ensures a + b + c == a + (b + c)
  {
  }

  /** A pattern whose first character appears nowhere else in it cannot start inside `x`
      and run into `y` when `y` begins with that character. */
  lemma NoStraddle(x: string, y: string, pat: string, i: nat)
    requires |pat| > 0 && |y| > 0 && y[0] == pat[0]
    requires forall j :: 0 < j < |pat| ==> pat[j] != pat[0]
    requires i < |x| < i + |pat|
    ensures !OccursAt(x + y, pat, i)
  {
    if i + |pat| <= |x + y| {
      assert (x + y)[i..i + |pat|][|x| - i] == y[0];
    }
  }

  /** Consequently an occurrence starting inside `x` lies entirely inside `x`. */
  lemma OccursInPrefix(x: string, y: string, pat: string, i: nat)
    requires |pat| > 0 && |y| > 0 && y[0] == pat[0]
    requires forall j :: 0 < j < |pat| ==> pat[j] != pat[0]
    requires i < |x|
    ensures OccursAt(x + y, pat, i) ==> OccursAt(x, pat, i)
  {
    if i + |pat| > |x| {
      NoStraddle(x, y, pat, i);
    } else {
      assert (x + y)[i..i + |pat|] == x[i..i + |pat|];
    }
  }

  /** An occurrence inside a slice of `s` is an occurrence in `s`. */
  lemma OccursAtSlice(s: string, pat: string, lo: nat, hi: nat, i: nat)
    requires lo <= hi <= |s|
    ensures OccursAt(s[lo..hi], pat, i) ==> OccursAt(s, pat, lo + i)
  {
    if i + |pat| <= hi - lo {
      var u := s[lo..hi][i..i + |pat|];
      var v := s[lo + i..lo + i + |pat|];
      forall k | 0 <= k < |pat| ensures u[k] == v[k] {
        assert s[lo..hi][i + k] == s[lo + i + k];
      }
      assert u == v;
    }
  }

  /** JavaScript's `WhiteSpace` and `LineTerminator` code points: what `String.prototype.trim` removes. */
  predicate IsJsSpace(c: char) {
    var n := c as int;
    n == 0x09 || n == 0x0A || n == 0x0B || n == 0x0C || n == 0x0D || n == 0x20
    || n == 0xA0 || n == 0x1680 || (0x2000 <= n <= 0x200A) || n == 0x2028 || n == 0x2029
    || n == 0x202F || n == 0x205F || n == 0x3000 || n == 0xFEFF
  }

  predicate AllSpace(s: string) {
    forall i :: 0 <= i < |s| ==> IsJsSpace(s[i])
  }

  /** Removes leading white space (characterised by `TrimStartShape`). */
  function TrimStart(s: string): string
    decreases |s|
  {
    if s != [] && IsJsSpace(s[0]) then TrimStart(s[1..]) else s
  }

  /** Removes trailing white space (characterised by `TrimEndShape`). */
  function TrimEnd(s: string): string
    decreases |s|
  {
    if s != [] && IsJsSpace(s[|s| - 1]) then TrimEnd(s[..|s| - 1]) else s
  }

  /** `TrimStart` keeps the suffix that starts at the first non-space: what it removes is
      all white space. */
  lemma {:induction false} TrimStartShape(s: string)
    ensures |TrimStart(s)| <= |s| && TrimStart(s) == s[|s| - |TrimStart(s)|..]
    ensures AllSpace(s[..|s| - |TrimStart(s)|])
    ensures TrimStart(s) == [] || !IsJsSpace(TrimStart(s)[0])
    decreases |s|
  {
    if s != [] && IsJsSpace(s[0]) {
      TrimStartShape(s[1..]);
      var k := |s| - |TrimStart(s)|;
      assert s[..k] == [s[0]] + s[1..][..k - 1];
    }
  }

  /** `TrimEnd` keeps the prefix that ends at the last non-space: what it removes is all
      white space. */
  lemma {:induction false} TrimEndShape(s: string)
    ensures |TrimEnd(s)| <= |s| && TrimEnd(s) == s[..|TrimEnd(s)|]
    ensures AllSpace(s[|TrimEnd(s)|..])
    ensures TrimEnd(s) == [] || !IsJsSpace(TrimEnd(s)[|TrimEnd(s)| - 1])
    decreases |s|
  {
    if s != [] && IsJsSpace(s[|s| - 1]) {
      var p := s[..|s| - 1];
      TrimEndShape(p);
      var k := |TrimEnd(s)|;
      assert s[k..] == p[k..] + [s[|s| - 1]];
    }
  }

  /** `s.trim()`. */
  function Trim(s: string): string {
    TrimEnd(TrimStart(s))
  }

  lemma {:induction false} TrimStartSpaces(l: string, x: string)
    requires AllSpace(l)
    ensures TrimStart(l + x) == TrimStart(x)
    decreases |l|
  {
    if l != [] {
      assert (l + x)[1..] == l[1..] + x;
      TrimStartSpaces(l[1..], x);
    } else {
      assert l + x == x;
    }
  }

  lemma {:induction false} TrimEndSpaces(x: string, r: string)
    requires AllSpace(r)
    ensures TrimEnd(x + r) == TrimEnd(x)
    decreases |r|
  {
    if r != [] {
      var r' := r[..|r| - 1];
      assert (x + r)[..|x + r| - 1] == x + r';
      TrimEndSpaces(x, r');
    } else {
      assert x + r == x;
    }
  }

  /** Trimming stops at the first non-space, so trailing text rides along unchanged. */
  lemma {:induction false} TrimStartAppend(x: string, r: string)
    requires !AllSpace(x)
    ensures TrimStart(x + r) == TrimStart(x) + r
    decreases |x|
  {
    if IsJsSpace(x[0]) {
      assert (x + r)[1..] == x[1..] + r;
      assert !AllSpace(x[1..]) by {
        var i :| 0 <= i < |x| && !IsJsSpace(x[i]);
        assert x[1..][i - 1] == x[i];
      }
      TrimStartAppend(x[1..], r);
    }
  }

  /** Trimming all white space gives the empty string. */
  lemma {:induction false} TrimStartAllSpace(x: string)
    requires AllSpace(x)
    ensures TrimStart(x) == []
    decreases |x|
  {
    if x != [] {
      TrimStartAllSpace(x[1..]);
    }
  }

  /** White space around an entry does not change its trimmed form. */
  lemma {:induction false} TrimPadded(l: string, e: string, r: string)
    requires AllSpace(l) && AllSpace(r)
    ensures Trim(l + e + r) == Trim(e)
  {
    assert l + e + r == l + (e + r);
    TrimStartSpaces(l, e + r);
    if AllSpace(e) {
      assert AllSpace(e + r);
      TrimStartAllSpace(e + r);
      TrimStartAllSpace(e);
    } else {
      TrimStartAppend(e, r);
      TrimEndSpaces(TrimStart(e), r);
    }
  }

  /** `parts.join(sep)` for a one-character separator. */
  function Join(parts: seq<string>, sep: char): string
    requires |parts| > 0
  {
    if |parts| == 1 then parts[0] else parts[0] + [sep] + Join(parts[1..], sep)
  }

  /** `s.split(sep)` for a one-character separator: the maximal separator-free pieces,
      which `Join` puts back together. */
  function Split(s: string, sep: char): (parts: seq<string>)
    ensures |parts| > 0
    ensures forall i :: 0 <= i < |parts| ==> sep !in parts[i]
    ensures Join(parts, sep) == s
  {
    if s == [] then [""]
    else
      var rest := Split(s[1..], sep);
      if s[0] == sep then
        assert ([""] + rest)[1..] == rest;
        [""] + rest
      else
        var parts := [[s[0]] + rest[0]] + rest[1..];
        assert parts[1..] == rest[1..];
        assert sep !in [s[0]] + rest[0];
        parts
  }

  /** Splitting text that starts with a separator-free piece puts that piece in front of the first part. */
  lemma {:induction false} SplitPrefix(a: string, t: string, sep: char)
    requires sep !in a
    ensures Split(a + t, sep) == [a + Split(t, sep)[0]] + Split(t, sep)[1..]
    decreases |a|
  {
    if a == [] {
      var p := Split(t, sep);
      assert a + t == t;
      assert a + p[0] == p[0];
      assert [p[0]] + p[1..] == p;
    } else {
      assert (a + t)[1..] == a[1..] + t;
      SplitPrefix(a[1..], t, sep);
      assert [a[0]] + (a[1..] + Split(t, sep)[0]) == a + Split(t, sep)[0];
    }
  }

  /** Text without the separator splits into itself alone. */
  lemma SplitWithoutSeparator(s: string, sep: char)
    requires sep !in s
    ensures Split(s, sep) == [s]
  {
    SplitJoin([s], sep);
  }

  /** `Split` inverts `Join` when no part contains the separator. */
  lemma {:induction false} SplitJoin(parts: seq<string>, sep: char)
    requires |parts| > 0
    requires forall i :: 0 <= i < |parts| ==> sep !in parts[i]
    ensures Split(Join(parts, sep), sep) == parts
    decreases |parts|
  {
    if |parts| == 1 {
      SplitPrefix(parts[0], "", sep);
      assert parts[0] + "" == parts[0];
    } else {
      var tail := Join(parts[1..], sep);
      SplitJoin(parts[1..], sep);
      assert parts[0] + [sep] + tail == parts[0] + ([sep] + tail);
      SplitPrefix(parts[0], [sep] + tail, sep);
      assert ([sep] + tail)[1..] == tail;
      assert parts[0] + "" == parts[0];
      assert [parts[0]] + parts[1..] == parts;
    }
  }

  /** Every occurrence of the literal `pat`, leftmost first and without overlap, replaced by
      `rep`: `s.replace(/pat/g, rep)` for a pattern with no special characters. */
  function ReplaceAll(s: string, pat: string, rep: string): string
    requires |pat| > 0
    decreases |s|
  {
    if s == [] then []
    else if pat <= s then rep + ReplaceAll(s[|pat|..], pat, rep)
    else [s[0]] + ReplaceAll(s[1..], pat, rep)
  }

  /** Text in which the pattern does not occur comes back unchanged. */
  lemma {:induction false} ReplaceAllAbsent(s: string, pat: string, rep: string)
    requires |pat| > 0 && !Occurs(pat, s)
    ensures ReplaceAll(s, pat, rep) == s
    decreases |s|
  {
    if s != [] {
      assert !(pat <= s) by {
        assert !OccursAt(s, pat, 0);
        assert |pat| <= |s| ==> s[0..|pat|] == s[..|pat|];
      }
      assert !Occurs(pat, s[1..]) by {
        forall i: nat | i <= |s[1..]| ensures !OccursAt(s[1..], pat, i) {
          OccursAtShift(s, pat, i);
        }
      }
      ReplaceAllAbsent(s[1..], pat, rep);
    }
  }

  /** Text before the first occurrence is copied unchanged. */
  lemma {:induction false} ReplaceAllSkip(s: string, pat: string, rep: string, i: nat)
    requires |pat| > 0 && i <= |s|
    requires forall j: nat :: j < i ==> !OccursAt(s, pat, j)
    ensures ReplaceAll(s, pat, rep) == s[..i] + ReplaceAll(s[i..], pat, rep)
    decreases i
  {
    if i > 0 {
      assert !(pat <= s) by {
        assert !OccursAt(s, pat, 0);
        assert |pat| <= |s| ==> s[0..|pat|] == s[..|pat|];
      }
      forall j: nat | j < i - 1 ensures !OccursAt(s[1..], pat, j) {
        OccursAtShift(s, pat, j);
      }
      ReplaceAllSkip(s[1..], pat, rep, i - 1);
      assert s[1..][i - 1..] == s[i..];
      assert [s[0]] + s[1..][..i - 1] == s[..i];
    }
  }

  /** Global replacement splices `rep` in at the first occurrence and carries on after it. */
  lemma {:induction false} ReplaceAllAtFirst(s: string, pat: string, rep: string, i: nat)
    requires |pat| > 0 && IndexOf(s, pat) == Some(i)
    ensures ReplaceAll(s, pat, rep) == s[..i] + rep + ReplaceAll(s[i + |pat|..], pat, rep)
  {
    ReplaceAllSkip(s, pat, rep, i);
    var t := s[i..];
    assert t[..|pat|] == s[i..i + |pat|];
    assert pat <= t;
    assert t[|pat|..] == s[i + |pat|..];
    assert ReplaceAll(t, pat, rep) == rep + ReplaceAll(t[|pat|..], pat, rep);
  }
}

=== FILE: js_value.dfy ===
/** The values a provider record holds in the site configuration, with the parts of
    JavaScript's value semantics the components rely on: truthiness, `typeof … === 'object'`,
    own-property access and conversion to a string. */
module JsValue {
  import opened Wrappers
  import opened JsText

  /** A configuration value: a string, an array or a plain object. */
  datatype Value = Str(s: string) | Arr(items: seq<Value>) | Obj(fields: map<string, Value>)

  /** JavaScript truthiness: of these values only the empty string is falsy. */
  predicate Truthy(v: Value) {
    !(v.Str? && v.s == "")
  }

  /** `typeof v === 'object'`: arrays and plain objects. */
  predicate IsObject(v: Value) {
    v.Arr? || v.Obj?
  }

  predicate IsDigit(c: char) {
    '0' <= c <= '9'
  }

  function DigitValue(c: char): (d: nat)
    requires IsDigit(c)
    ensures d < 10
  {
    assert '0' as int <= c as int <= '9' as int;
    (c as int) - ('0' as int)
  }

  /** A property name that denotes an array element: decimal digits with no leading zero. */
  predicate IsArrayIndex(key: string) {
    && |key| > 0
    && (forall i :: 0 <= i < |key| ==> IsDigit(key[i]))
    && (key[0] != '0' || |key| == 1)
  }

  /** The number a string of decimal digits denotes. */
  function DigitsValue(key: string): nat
    requires forall i :: 0 <= i < |key| ==> IsDigit(key[i])
  {
    if key == [] then 0
    else DigitsValue(key[..|key| - 1]) * 10 + DigitValue(key[|key| - 1])
  }

  /** `String(n)` for a natural number. */
  function DecimalString(n: nat): (r: string)
    ensures |r| > 0 && forall i :: 0 <= i < |r| ==> IsDigit(r[i])
  {
    var d := ((n % 10) + ('0' as int)) as char;
    if n < 10 then [d] else DecimalString(n / 10) + [d]
  }

  /** `String(n)` is the canonical index name of element `n`. */
  lemma {:induction false} DecimalStringIsIndex(n: nat)
    ensures IsArrayIndex(DecimalString(n))
    ensures DigitsValue(DecimalString(n)) == n
  {
    var r := DecimalString(n);
    if n >= 10 {
      var p := DecimalString(n / 10);
      DecimalStringIsIndex(n / 10);
      assert r[..|r| - 1] == p;
      assert r[0] == p[0];
    }
  }

  /** `v[key]` restricted to own data properties: an object's field, an array's element
      or a string's character. `None` is `undefined`. */
  function Member(v: Value, key: string): (r: Option<Value>)
    ensures v.Obj? ==> (r.Some? <==> key in v.fields)
    ensures v.Obj? && key in v.fields ==> r == Some(v.fields[key])
    ensures v.Arr? ==> (r.Some? <==> IsArrayIndex(key) && DigitsValue(key) < |v.items|)
    ensures v.Arr? && r.Some? ==> r.value == v.items[DigitsValue(key)]
    ensures v.Str? ==> (r.Some? <==> IsArrayIndex(key) && DigitsValue(key) < |v.s|)
    ensures v.Str? && r.Some? ==> r.value == Str([v.s[DigitsValue(key)]])
  {
    match v
    case Obj(fields) => if key in fields then Some(fields[key]) else None
    case Arr(items) =>
      if IsArrayIndex(key) && DigitsValue(key) < |items| then Some(items[DigitsValue(key)]) else None
    case Str(s) =>
      if IsArrayIndex(key) && DigitsValue(key) < |s| then Some(Str([s[DigitsValue(key)]])) else None
  }

  /** Indexing an array by the decimal name of a position yields that element. */
  lemma ArrayElement(items: seq<Value>, i: nat)
    requires i < |items|
    ensures Member(Arr(items), DecimalString(i)) == Some(items[i])
  {
    DecimalStringIsIndex(i);
  }

  /** `key in v` on a value already known to be an object. */
  predicate HasProperty(v: Value, key: string)
    requires IsObject(v)
  {
    Member(v, key).Some?
  }

  /** `String(v)`: a string as itself, an array as its elements' strings joined with `,`,
      a plain object as `[object Object]`. */
  function ToJsString(v: Value): string
    decreases v
  {
    match v
    case Str(s) => s
    case Obj(_) => "[object Object]"
    case Arr(items) =>
      if items == [] then ""
      else Join(seq(|items|, i requires 0 <= i < |items| => ToJsString(items[i])), ',')
  }

  /** The array of strings `strs` as a value. */
  function StrArray(strs: seq<string>): (v: Value)
    ensures v.Arr? && |v.items| == |strs|
  {
    Arr(seq(|strs|, i requires 0 <= i < |strs| => Str(strs[i])))
  }

  /** Splitting the string form of a non-empty array of comma-free strings on `,` recovers
      the array. */
  lemma StrArrayRoundTrip(strs: seq<string>)
    requires |strs| > 0
    requires forall i :: 0 <= i < |strs| ==> ',' !in strs[i]
    ensures Split(ToJsString(StrArray(strs)), ',') == strs
  {
    var items := StrArray(strs).items;
    assert seq(|items|, i requires 0 <= i < |items| => ToJsString(items[i])) == strs;
    SplitJoin(strs, ',');
  }
}

=== FILE: provider_code_block.dfy ===
/** `ProviderCodeBlock`: a code sample passed through an optional show/hide gate, then
    `{{attribute}}` substitution from the current provider's record, then removal or
    unwrapping of `# PROVIDER:<key>:START` … `# PROVIDER:<key>:END` sections, then a fixed
    table of AWS-to-Azure literal rewrites when the current provider is `azure`.
    Every regular expression is modelled as an explicit scanner over the suffixes of the
    text, with a lexing view (pieces, segments) that puts the text back together. */
module ProviderCodeBlock {
  import opened Wrappers
  import opened JsText
  import opened JsValue
  import opened SiteConfig

  // ----- `{{attribute}}` tokens -----

  /** The text of a token naming attribute `id`. */
  function TokenText(id: string): string {
    "{{" + id + "}}"
  }

  /** `/\{\{(\w+)\}\}/` tried at the start of `s`: the attribute name when a token begins here. */
  function TokenAt(s: string): (r: Option<string>)
    ensures r.Some? ==> IsWord(r.value) && TokenText(r.value) <= s
  {
    if |s| >= 2 && s[0] == '{' && s[1] == '{' then
      var n := WordRun(s[2..]);
      if n > 0 && 4 + n <= |s| && s[2 + n] == '}' && s[3 + n] == '}' then
        assert s[..4 + n] == TokenText(s[2..2 + n]);
        Some(s[2..2 + n])
      else None
    else None
  }

  /** Every token text is recognised, with exactly its own name: `\w+` cannot stop early
      because `}` is not a word character. */
  lemma {:induction false} TokenAtToken(id: string, t: string)
    requires IsWord(id)
    ensures TokenAt(TokenText(id) + t) == Some(id)
  {
    var s := TokenText(id) + t;
    assert s[2..] == id + ("}}" + t);
    WordRunOfWord(id, "}}" + t);
    assert s[2..2 + |id|] == id;
  }

  /** A position of the text as the token scan sees it: a plain character or a whole token. */
  datatype Piece = Char(c: char) | Token(id: string)

  function PieceText(p: Piece): string {
    match p
    case Char(c) => [c]
    case Token(id) => TokenText(id)
  }

  function Unlex(ps: seq<Piece>): string {
    if ps == [] then [] else PieceText(ps[0]) + Unlex(ps[1..])
  }

  /** The token scan of a global `replace`: at each position a token if one begins there
      (then resume after it), else one character. */
  function Lex(s: string): seq<Piece>
    decreases |s|
  {
    if s == [] then []
    else
      var p := PieceAt(s);
      [p] + Lex(s[|PieceText(p)|..])
  }

  /** Reassembling the pieces of the scan gives back the text. */
  lemma {:induction false} LexRoundTrip(s: string)
    ensures Unlex(Lex(s)) == s
    decreases |s|
  {
    if s != [] {
      var p := PieceAt(s);
      var rest := s[|PieceText(p)|..];
      assert Lex(s) == [p] + Lex(rest);
      LexRoundTrip(rest);
      UnlexCons(p, Lex(rest));
      PrefixRest(PieceText(p), s);
    }
  }

  /** One step of the token scan: the token beginning the text, else its first character. */
  function PieceAt(s: string): (p: Piece)
    requires s != []
    ensures 0 < |PieceText(p)| && PieceText(p) <= s
  {
    match TokenAt(s)
    case Some(id) => Token(id)
    case None => Char(s[0])
  }

  lemma {:induction false} UnlexCons(p: Piece, rest: seq<Piece>)
    ensures Unlex([p] + rest) == PieceText(p) + Unlex(rest)
  {
    assert ([p] + rest)[1..] == rest;
  }

  /** A token begins somewhere in `s`. */
  predicate HasToken(s: string) {
    exists i :: 0 <= i <= |s| && TokenAt(s[i..]).Some?
  }

  /** `providers[current]?.[id]`, when it is truthy, converted to a string; otherwise the
      token itself (`value || match`). */
  function Replacement(record: Option<Value>, id: string): string {
    var v := if record.Some? then Member(record.value, id) else None;
    if v.Some? && Truthy(v.value) then ToJsString(v.value) else TokenText(id)
  }

  function Expand(record: Option<Value>, ps: seq<Piece>): string {
    if ps == [] then []
    else
      (match ps[0]
       case Char(c) => [c]
       case Token(id) => Replacement(record, id))
      + Expand(record, ps[1..])
  }

  /** `code.replace(/\{\{(\w+)\}\}/g, …)` with `record` standing for `providers[current]`. */
  function Substitute(record: Option<Value>, code: string): string {
    Expand(record, Lex(code))
  }

  /** Where every token resolves to itself, expansion is reassembly. */
  lemma {:induction false} ExpandUnresolved(record: Option<Value>, ps: seq<Piece>)
    requires forall i :: 0 <= i < |ps| && ps[i].Token? ==> Replacement(record, ps[i].id) == TokenText(ps[i].id)
    ensures Expand(record, ps) == Unlex(ps)
  {
    if ps != [] {
      ExpandUnresolved(record, ps[1..]);
    }
  }

  /** Without a record for the current provider every token is left verbatim, so the
      code is unchanged. */
  lemma SubstituteWithoutRecord(code: string)
    ensures Substitute(None, code) == code
  {
    ExpandUnresolved(None, Lex(code));
    LexRoundTrip(code);
  }

  /** With no token anywhere, the scan yields only plain characters. */
  lemma {:induction false} LexWithoutTokens(s: string)
    requires !HasToken(s)
    ensures forall i :: 0 <= i < |Lex(s)| ==> Lex(s)[i].Char?
    decreases |s|
  {
    if s != [] {
      assert TokenAt(s[0..]).None?;
      assert s[0..] == s;
      assert !HasToken(s[1..]) by {
        forall i | 0 <= i <= |s[1..]| ensures TokenAt(s[1..][i..]).None? {
          assert s[1..][i..] == s[i + 1..];
        }
      }
      LexWithoutTokens(s[1..]);
    }
  }

  /** Code without any `{{word}}` token is returned unchanged by substitution. */
  lemma SubstituteWithoutTokens(record: Option<Value>, code: string)
    requires !HasToken(code)
    ensures Substitute(record, code) == code
  {
    LexWithoutTokens(code);
    ExpandUnresolved(record, Lex(code));
    LexRoundTrip(code);
  }

  /** A token at the front is replaced by the current provider's attribute when that is
      truthy, and kept verbatim when it is missing or empty; the rest is substituted on. */
  lemma SubstituteToken(record: Option<Value>, id: string, t: string)
    requires IsWord(id)
    ensures Substitute(record, TokenText(id) + t) ==
      (if record.Some? && Member(record.value, id).Some? && Truthy(Member(record.value, id).value)
       then ToJsString(Member(record.value, id).value)
       else TokenText(id))
      + Substitute(record, t)
  {
    var s := TokenText(id) + t;
    TokenAtToken(id, t);
    assert s[|id| + 4..] == t;
  }

  /** Text without a `{` cannot begin a token and is copied as it is. */
  lemma {:induction false} SubstitutePlain(record: Option<Value>, a: string, t: string)
    requires '{' !in a
    ensures Substitute(record, a + t) == a + Substitute(record, t)
    decreases |a|
  {
    if a != [] {
      var s := a + t;
      assert Substitute(record, s) == [a[0]] + Substitute(record, a[1..] + t) by {
        assert s[0] == a[0] && s[0] != '{';
        assert s[1..] == a[1..] + t;
        SubstituteChar(record, s);
      }
      SubstitutePlain(record, a[1..], t);
      Assoc([a[0]], a[1..], Substitute(record, t));
      assert a == [a[0]] + a[1..];
    } else {
      assert a + t == t;
    }
  }

  /** A first character other than `{` begins no token and is copied. */
  lemma {:induction false} SubstituteChar(record: Option<Value>, s: string)
    requires s != [] && s[0] != '{'
    ensures Substitute(record, s) == [s[0]] + Substitute(record, s[1..])
  {
    assert PieceAt(s) == Char(s[0]);
    var rest := Lex(s[1..]);
    assert Lex(s) == [Char(s[0])] + rest;
    assert ([Char(s[0])] + rest)[1..] == rest;
  }

  // ----- `# PROVIDER:<key>:START` … `# PROVIDER:<key>:END` sections -----

  const MarkerHead: string := "# PROVIDER:"

  function StartMarker(k: string): string {
    MarkerHead + k + ":START"
  }

  function EndMarker(k: string): string {
    MarkerHead + k + ":END"
  }

  /** `/# PROVIDER:(\w+):START/` tried at the start of `s`: the key when a start marker begins here. */
  function StartKey(s: string): (r: Option<string>)
    ensures r.Some? ==> IsWord(r.value) && StartMarker(r.value) <= s
  {
    if MarkerHead <= s then
      var n := WordRun(s[11..]);
      if n > 0 && ":START" <= s[11 + n..] then
        assert s[..11 + n + 6] == StartMarker(s[11..11 + n]);
        Some(s[11..11 + n])
      else None
    else None
  }

  /** Every start marker is recognised, with exactly its own key. */
  lemma {:induction false} StartKeyOfMarker(k: string, t: string)
    requires IsWord(k)
    ensures StartKey(StartMarker(k) + t) == Some(k)
  {
    var s := StartMarker(k) + t;
    assert s[..11] == MarkerHead;
    assert s[11..] == k + (":START" + t);
    WordRunOfWord(k, ":START" + t);
    assert s[11..11 + |k|] == k;
    assert s[11 + |k|..] == ":START" + t;
  }

  /** A provider-section match: the key and the text between the markers. */
  datatype Segment = Plain(c: char) | Section(key: string, body: string)

  function SegmentText(g: Segment): string {
    match g
    case Plain(c) => [c]
    case Section(k, b) => StartMarker(k) + b + EndMarker(k)
  }

  function Unsegment(gs: seq<Segment>): string {
    if gs == [] then [] else SegmentText(gs[0]) + Unsegment(gs[1..])
  }

  /** A section's key is a word, and its end marker repeats that key and is the first one
      after the start marker (the lazy `[\s\S]*?`): no earlier position of body-plus-end
      holds it. */
  predicate WellFormed(g: Segment) {
    g.Section? ==>
      && IsWord(g.key)
      && forall j: nat :: j < |g.body| ==> !OccursAt(g.body + EndMarker(g.key), EndMarker(g.key), j)
  }

  /** `/# PROVIDER:(\w+):START[\s\S]*?# PROVIDER:\1:END/` tried at the start of `s`. */
  function SectionAt(s: string): (r: Option<Segment>)
    ensures r.Some? ==> r.value.Section? && WellFormed(r.value) && SegmentText(r.value) <= s
  {
    match StartKey(s)
    case None => None
    case Some(k) =>
      var rest := s[|StartMarker(k)|..];
      var end := EndMarker(k);
      match IndexOf(rest, end)
      case None => None
      case Some(p) =>
        SectionOfMatch(s, k, p);
        Some(Section(k, rest[..p]))
  }

  /** The match found by `SectionAt` is a well-formed section that `s` begins with. */
  lemma {:induction false} SectionOfMatch(s: string, k: string, p: nat)
    requires IsWord(k) && StartMarker(k) <= s
    requires IndexOf(s[|StartMarker(k)|..], EndMarker(k)) == Some(p)
    ensures WellFormed(Section(k, s[|StartMarker(k)|..][..p]))
    ensures SegmentText(Section(k, s[|StartMarker(k)|..][..p])) <= s
  {
    var rest := s[|StartMarker(k)|..];
    ClosesAtFirst(rest, EndMarker(k), p);
    MatchIsPrefix(s, StartMarker(k), EndMarker(k), p);
  }

  /** The text before the first occurrence of `end` holds no earlier occurrence of it. */
  lemma {:induction false} ClosesAtFirst(rest: string, end: string, p: nat)
    requires IndexOf(rest, end) == Some(p)
    ensures forall j: nat :: j < p ==> !OccursAt(rest[..p] + end, end, j)
  {
    assert OccursAt(rest, end, p);
    assert rest[..p + |end|] == rest[..p] + end;
    forall j: nat | j < p ensures !OccursAt(rest[..p] + end, end, j) {
      OccursAtSlice(rest, end, 0, p + |end|, j);
      assert rest[0..p + |end|] == rest[..p + |end|];
    }
  }

  lemma {:induction false} MatchIsPrefix(s: string, start: string, end: string, p: nat)
    requires start <= s
    requires OccursAt(s[|start|..], end, p)
    ensures start + s[|start|..][..p] + end <= s
  {
    var rest := s[|start|..];
    assert rest[..p + |end|] == rest[..p] + end;
    assert s == start + rest;
  }

  /** The section scan of a global `replace`: at each position a whole section if one
      begins there (then resume after it), else one character. */
  function Segments(s: string): seq<Segment>
    decreases |s|
  {
    if s == [] then []
    else
      var g := SegmentAt(s);
      [g] + Segments(s[|SegmentText(g)|..])
  }

  /** Reassembling the segments of the scan gives back the text. */
  lemma {:induction false} SegmentsRoundTrip(s: string)
    ensures Unsegment(Segments(s)) == s
    decreases |s|
  {
    if s != [] {
      var g := SegmentAt(s);
      var rest := s[|SegmentText(g)|..];
      assert Segments(s) == [g] + Segments(rest);
      SegmentsRoundTrip(rest);
      UnsegmentCons(g, Segments(rest));
      PrefixRest(SegmentText(g), s);
    }
  }

  /** One step of the section scan: the section beginning the text, else its first character. */
  function SegmentAt(s: string): (g: Segment)
    requires s != []
    ensures 0 < |SegmentText(g)| && SegmentText(g) <= s
  {
    match SectionAt(s)
    case Some(g) => g
    case None => Plain(s[0])
  }

  lemma {:induction false} UnsegmentCons(g: Segment, rest: seq<Segment>)
    ensures Unsegment([g] + rest) == SegmentText(g) + Unsegment(rest)
  {
    assert ([g] + rest)[1..] == rest;
  }

  /** `s` begins with the marker `# PROVIDER:<k>:<tag>` for the word `k`. */
  predicate MarkerAt(s: string, k: string, tag: string) {
    IsWord(k) && MarkerHead + k + (":" + tag) <= s
  }

  /** A marker at the front pins its key: it is the word run right after the head, and
      `:<tag>` follows it. */
  lemma MarkerKeys(s: string, tag: string)
    ensures forall k :: MarkerAt(s, k, tag) ==>
      && MarkerHead <= s && 0 < WordRun(s[11..])
      && k == s[11..11 + WordRun(s[11..])]
      && [':'] + tag <= s[11 + WordRun(s[11..])..]
  {
    forall k | MarkerAt(s, k, tag)
      ensures && MarkerHead <= s && 0 < WordRun(s[11..])
              && k == s[11..11 + WordRun(s[11..])]
              && [':'] + tag <= s[11 + WordRun(s[11..])..]
    {
      var c := ":" + tag;
      var m := MarkerHead + k + c;
      var x := s[|m|..];
      PrefixRest(m, s);
      assert m + x == MarkerHead + (k + (c + x));
      assert s[..11] == MarkerHead;
      assert s[11..] == k + (c + x);
      WordRunOfWord(k, c + x);
      assert s[11 + |k|..] == c + x;
    }
  }

  /** Length of the marker `# PROVIDER:<k>:<tag>` at the front of `s`, with the newline
      after it when there is one. */
  function MarkerSpan(s: string, k: string, tag: string): nat {
    var m := |MarkerHead + k + (":" + tag)|;
    if m < |s| && s[m] == '\n' then m + 1 else m
  }

  /** A non-empty word run after the head, followed by `:<tag>`, is a marker. */
  lemma MarkerWitness(s: string, tag: string)
    requires MarkerHead <= s && 0 < WordRun(s[11..])
    requires [':'] + tag <= s[11 + WordRun(s[11..])..]
    ensures MarkerAt(s, s[11..11 + WordRun(s[11..])], tag)
  {
    var n := WordRun(s[11..]);
    var k := s[11..11 + n];
    assert IsWord(k) by {
      assert forall i :: 0 <= i < n ==> k[i] == s[11..][i];
    }
    var m := 11 + n + 1 + |tag|;
    assert s[..11] == MarkerHead;
    assert s[11 + n..m] == [':'] + tag;
    assert s[..m] == s[..11] + k + s[11 + n..m];
  }

  /** `/# PROVIDER:\w+:<tag>\n?/` tried at the start of `s`: the length of the marker,
      with the newline after it when there is one. There is a match exactly when some
      word `k` makes `s` begin with `# PROVIDER:<k>:<tag>`, and then `k` decides the length. */
  function MarkerLength(s: string, tag: string): (r: Option<nat>)
    ensures r.Some? ==> 0 < r.value <= |s| && MarkerHead <= s
    ensures r.Some? ==> exists k :: MarkerAt(s, k, tag)
    ensures forall k :: MarkerAt(s, k, tag) ==> r == Some(MarkerSpan(s, k, tag))
  {
    MarkerKeys(s, tag);
    if MarkerHead <= s then
      var n := WordRun(s[11..]);
      if n > 0 && [':'] + tag <= s[11 + n..] then
        MarkerWitness(s, tag);
        Some(MarkerSpan(s, s[11..11 + n], tag))
      else None
    else None
  }

  /** `s.replace(/# PROVIDER:\w+:<tag>\n?/, '')`: removes the first such marker only. */
  function RemoveFirstMarker(s: string, tag: string): string
    decreases |s|
  {
    if s == [] then []
    else
      match MarkerLength(s, tag)
      case Some(n) => s[n..]
      case None => [s[0]] + RemoveFirstMarker(s[1..], tag)
  }

  /** A section for the current provider keeps its text, minus the first start marker (and
      the newline after it) and then minus the first end marker of any key. */
  function Unwrap(g: Segment): string
    requires g.Section?
  {
    RemoveFirstMarker(RemoveFirstMarker(SegmentText(g), "START"), "END")
  }

  function RenderSegments(current: string, gs: seq<Segment>): string {
    if gs == [] then []
    else
      (match gs[0]
       case Plain(c) => [c]
       case Section(k, _) => if k == current then Unwrap(gs[0]) else [])
      + RenderSegments(current, gs[1..])
  }

  /** `code.replace(providerSectionPattern, …)`: sections of other providers vanish,
      sections of the current provider are unwrapped, everything else is kept. */
  function FilterSections(current: string, code: string): string {
    RenderSegments(current, Segments(code))
  }

  /** Every section the scan finds is well formed: a word key, closed by the first end
      marker that repeats it. */
  lemma {:induction false} SegmentsWellFormed(s: string)
    ensures forall i :: 0 <= i < |Segments(s)| ==> WellFormed(Segments(s)[i])
    decreases |s|
  {
    if s != [] {
      var gs := Segments(s);
      match SectionAt(s)
      case Some(g) =>
        var rest := s[|SegmentText(g)|..];
        SegmentsWellFormed(rest);
        assert gs == [g] + Segments(rest);
      case None =>
        SegmentsWellFormed(s[1..]);
        assert gs == [Plain(s[0])] + Segments(s[1..]);
    }
  }

  // ----- Facts about the section filter -----

  /** `#` opens every marker and appears nowhere else in one. */
  lemma MarkerHashes(k: string)
    requires IsWord(k)
    ensures StartMarker(k)[0] == '#' && EndMarker(k)[0] == '#' && MarkerHead[0] == '#'
    ensures forall i :: 0 < i < |StartMarker(k)| ==> StartMarker(k)[i] != '#'
    ensures forall i :: 0 < i < |EndMarker(k)| ==> EndMarker(k)[i] != '#'
    ensures forall i :: 0 < i < |MarkerHead| ==> MarkerHead[i] != '#'
  {
    forall i | 0 < i < |StartMarker(k)| ensures StartMarker(k)[i] != '#' {
      if i < 11 {
        assert StartMarker(k)[i] == MarkerHead[i];
      } else if i < 11 + |k| {
        assert StartMarker(k)[i] == k[i - 11];
      } else {
        assert StartMarker(k)[i] == ":START"[i - 11 - |k|];
      }
    }
    forall i | 0 < i < |EndMarker(k)| ensures EndMarker(k)[i] != '#' {
      if i < 11 {
        assert EndMarker(k)[i] == MarkerHead[i];
      } else if i < 11 + |k| {
        assert EndMarker(k)[i] == k[i - 11];
      } else {
        assert EndMarker(k)[i] == ":END"[i - 11 - |k|];
      }
    }
  }

  /** No marker head starts at any position of `x` when the text continues with `t`. */
  predicate HeadFree(x: string, t: string) {
    forall p :: 0 <= p < |x| ==> !(MarkerHead <= (x + t)[p..])
  }

  /** Text holding no marker head, followed by a `#` (or nothing), starts no marker. */
  lemma HeadFreeByAbsence(x: string, t: string)
    requires !Occurs(MarkerHead, x)
    requires t == [] || t[0] == '#'
    ensures HeadFree(x, t)
  {
    MarkerHashes("a");
    forall p | 0 <= p < |x| ensures !(MarkerHead <= (x + t)[p..]) {
      assert MarkerHead <= (x + t)[p..] ==> OccursAt(x + t, MarkerHead, p) by {
        if p + |MarkerHead| <= |x + t| {
          assert (x + t)[p..][..|MarkerHead|] == (x + t)[p..p + |MarkerHead|];
        }
      }
      if t == [] {
        assert x + t == x;
      } else {
        OccursInPrefix(x, t, MarkerHead, p);
      }
      assert !OccursAt(x, MarkerHead, p);
    }
  }

  /** Positions that start no section are copied one character at a time. */
  lemma {:induction false} FilterSkip(current: string, a: string, t: string)
    requires forall p :: 0 <= p < |a| ==> SectionAt((a + t)[p..]).None?
    ensures FilterSections(current, a + t) == a + FilterSections(current, t)
    decreases |a|
  {
    if a == [] {
      assert a + t == t;
    } else {
      var s := a + t;
      assert FilterSections(current, s) == [a[0]] + FilterSections(current, a[1..] + t) by {
        assert SectionAt(s[0..]).None?;
        assert s[0..] == s;
        assert s[1..] == a[1..] + t;
        FilterChar(current, s);
      }
      assert forall p :: 0 <= p < |a[1..]| ==> SectionAt((a[1..] + t)[p..]).None? by {
        forall p | 0 <= p < |a[1..]| ensures SectionAt((a[1..] + t)[p..]).None? {
          assert (a[1..] + t)[p..] == s[p + 1..];
        }
      }
      FilterSkip(current, a[1..], t);
      assert [a[0]] + (a[1..] + FilterSections(current, t)) == a + FilterSections(current, t) by {
        Assoc([a[0]], a[1..], FilterSections(current, t));
        assert a == [a[0]] + a[1..];
      }
    }
  }

  /** A first character that begins no section is copied. */
  lemma {:induction false} FilterChar(current: string, s: string)
    requires s != [] && SectionAt(s).None?
    ensures FilterSections(current, s) == [s[0]] + FilterSections(current, s[1..])
  {
    assert SegmentAt(s) == Plain(s[0]);
    var rest := Segments(s[1..]);
    assert Segments(s) == [Plain(s[0])] + rest;
    assert ([Plain(s[0])] + rest)[1..] == rest;
  }

  /** A section needs a marker head where it starts. */
  lemma SectionNeedsHead(s: string)
    ensures SectionAt(s).Some? ==> MarkerHead <= s
  {
  }

  /** Text with no marker head anywhere is returned unchanged by the section filter. */
  lemma FilterWithoutMarkers(current: string, code: string)
    requires !Occurs(MarkerHead, code)
    ensures FilterSections(current, code) == code
  {
    HeadFreeByAbsence(code, []);
    forall p | 0 <= p < |code| ensures SectionAt((code + [])[p..]).None? {
      SectionNeedsHead((code + [])[p..]);
    }
    FilterSkip(current, code, []);
    assert code + [] == code;
    assert FilterSections(current, []) == [];
  }

  /** In `b + END(k) + t`, with no `END(k)` inside `b`, the first `END(k)` is the one right after `b`. */
  lemma {:induction false} FirstEndAfterBody(k: string, b: string, t: string)
    requires IsWord(k) && !Occurs(EndMarker(k), b)
    ensures IndexOf(b + EndMarker(k) + t, EndMarker(k)) == Some(|b|)
  {
    var end := EndMarker(k);
    var rest := b + end + t;
    MarkerHashes(k);
    assert rest[|b|..|b| + |end|] == end;
    assert OccursAt(rest, end, |b|);
    forall j: nat | j < |b| ensures !OccursAt(rest, end, j) {
      assert rest == b + (end + t);
      OccursInPrefix(b, end + t, end, j);
      if j + |end| <= |b| {
        assert rest[j..j + |end|] == b[j..j + |end|];
      }
      assert !OccursAt(b, end, j);
    }
  }

  /** A complete section at the front is removed when its key is not the current provider
      and unwrapped when it is; either way the filter then carries on with the text after
      the end marker. With `t` starting a second `END(k)`, this also says the section closes
      at the first end marker repeating its key. */
  lemma {:induction false} FilterSection(current: string, k: string, b: string, t: string)
    requires IsWord(k) && !Occurs(EndMarker(k), b)
    ensures FilterSections(current, StartMarker(k) + b + EndMarker(k) + t)
      == (if k == current then Unwrap(Section(k, b)) else []) + FilterSections(current, t)
  {
    var s := StartMarker(k) + b + EndMarker(k) + t;
    var rest := b + EndMarker(k) + t;
    assert s == StartMarker(k) + rest;
    StartKeyOfMarker(k, rest);
    assert s[|StartMarker(k)|..] == rest;
    FirstEndAfterBody(k, b, t);
    assert rest[..|b|] == b;
    var g := Section(k, b);
    assert SectionAt(s) == Some(g);
    assert s[|SegmentText(g)|..] == t;
    assert Segments(s) == [g] + Segments(t);
    assert ([g] + Segments(t))[1..] == Segments(t);
  }

  /** `b` without one leading newline. */
  function DropNewline(b: string): string {
    if b != [] && b[0] == '\n' then b[1..] else b
  }

  /** No position of `a` starts a `<tag>` marker when the text continues with `t`. */
  predicate MarkerFree(a: string, t: string, tag: string) {
    forall p :: 0 <= p < |a| ==> MarkerLength((a + t)[p..], tag).None?
  }

  /** Positions that start no marker are copied by `RemoveFirstMarker`. */
  lemma {:induction false} RemoveSkip(a: string, t: string, tag: string)
    requires MarkerFree(a, t, tag)
    ensures RemoveFirstMarker(a + t, tag) == a + RemoveFirstMarker(t, tag)
    decreases |a|
  {
    if a == [] {
      assert a + t == t;
    } else {
      var s := a + t;
      MarkerFreeTail(a, t, tag);
      assert s[1..] == a[1..] + t;
      RemoveChar(s, tag);
      RemoveSkip(a[1..], t, tag);
      assert [a[0]] + (a[1..] + RemoveFirstMarker(t, tag)) == a + RemoveFirstMarker(t, tag) by {
        Assoc([a[0]], a[1..], RemoveFirstMarker(t, tag));
        assert a == [a[0]] + a[1..];
      }
    }
  }

  /** The first position of marker-free text starts no marker, and the rest stays free. */
  lemma MarkerFreeTail(a: string, t: string, tag: string)
    requires a != [] && MarkerFree(a, t, tag)
    ensures MarkerLength(a + t, tag).None? && MarkerFree(a[1..], t, tag)
  {
    var s := a + t;
    assert s[0..] == s;
    forall p | 0 <= p < |a[1..]| ensures MarkerLength((a[1..] + t)[p..], tag).None? {
      assert (a[1..] + t)[p..] == s[p + 1..];
    }
  }

  /** A first character that begins no marker is copied. */
  lemma RemoveChar(s: string, tag: string)
    requires s != [] && MarkerLength(s, tag).None?
    ensures RemoveFirstMarker(s, tag) == [s[0]] + RemoveFirstMarker(s[1..], tag)
  {
  }

  /** No end marker of any key occurs in `b`; start markers and other text may. */
  ghost predicate EndFree(b: string) {
    forall k :: IsWord(k) ==> !Occurs(EndMarker(k), b)
  }

  /** Text without a marker head holds no end marker either. */
  lemma HeadlessEndFree(b: string)
    requires !Occurs(MarkerHead, b)
    ensures EndFree(b)
  {
    forall k, i: nat | IsWord(k) && i <= |b| ensures !OccursAt(b, EndMarker(k), i) {
      OccursAtPrefix(b, EndMarker(k), MarkerHead, i);
    }
  }

  /** Dropping a leading newline cannot create an end marker. */
  lemma DropNewlineEndFree(b: string)
    requires EndFree(b)
    ensures EndFree(DropNewline(b))
  {
    if DropNewline(b) != b {
      forall k, i: nat | IsWord(k) && i <= |b[1..]| ensures !OccursAt(b[1..], EndMarker(k), i) {
        OccursAtShift(b, EndMarker(k), i);
      }
    }
  }

  /** Text holding no end marker, followed by a `#` or nothing, starts no end marker: one
      that began inside it would have to run on into the `#`. */
  lemma EndFreeSkip(b: string, t: string)
    requires EndFree(b) && (t == [] || t[0] == '#')
    ensures MarkerFree(b, t, "END")
  {
    forall p | 0 <= p < |b| ensures MarkerLength((b + t)[p..], "END").None? {
      var u := (b + t)[p..];
      forall k | IsWord(k) ensures !MarkerAt(u, k, "END") {
        var e := EndMarker(k);
        assert e == MarkerHead + k + (":" + "END");
        MarkerHashes(k);
        assert e <= u ==> OccursAt(b + t, e, p) by {
          if |e| <= |u| {
            assert (b + t)[p..p + |e|] == u[..|e|];
          }
        }
        if t == [] {
          assert b + t == b;
        } else {
          OccursInPrefix(b, t, e, p);
        }
        assert !OccursAt(b, e, p);
      }
    }
  }

  /** An occurrence of a non-empty pattern begins with the pattern's first character. */
  lemma OccursAtHead(s: string, pat: string, i: nat)
    requires |pat| > 0
    ensures OccursAt(s, pat, i) ==> s[i] == pat[0] && pat <= s[i..]
  {
    if OccursAt(s, pat, i) {
      assert s[i..i + |pat|][0] == pat[0];
      assert s[i..][..|pat|] == s[i..i + |pat|];
    }
  }

  /** A start marker never begins with an end marker: the keys would have to have the same
      length, and then `S` meets `E`. */
  lemma StartNotEnd(k: string, k2: string, y: string)
    requires IsWord(k) && IsWord(k2)
    ensures !(EndMarker(k2) <= StartMarker(k) + y)
  {
    var s := StartMarker(k) + y;
    var e := EndMarker(k2);
    if |k2| < |k| {
      assert e[11 + |k2|] == ':';
      assert s[11 + |k2|] == k[|k2|];
    } else if |k| < |k2| {
      assert e[11 + |k|] == k2[|k|];
      assert s[11 + |k|] == ':';
    } else {
      assert e[12 + |k|] == 'E';
      assert s[12 + |k|] == 'S';
    }
  }

  /** A start marker between two stretches of text without `#` leaves the whole free of
      end markers. */
  lemma StartMarkerEndFree(k: string, x: string, y: string)
    requires IsWord(k) && '#' !in x && '#' !in y
    ensures EndFree(x + StartMarker(k) + y)
  {
    var st := StartMarker(k);
    var s := x + st + y;
    MarkerHashes(k);
    forall k2, i: nat | IsWord(k2) && i <= |s| ensures !OccursAt(s, EndMarker(k2), i) {
      var e := EndMarker(k2);
      MarkerHashes(k2);
      if i < |s| {
        OccursAtHead(s, e, i);
        if i < |x| {
          assert s[i] == x[i];
        } else if i == |x| {
          assert s[i..] == st + y;
          StartNotEnd(k, k2, y);
        } else if i < |x| + |st| {
          assert s[i] == st[i - |x|];
        } else {
          assert s[i] == y[i - |x| - |st|];
        }
      }
    }
  }

  /** A marker with a word key and the given tag is recognised whole, with the newline after
      it when there is one. */
  lemma {:induction false} MarkerLengthOfMarker(k: string, tag: string, x: string)
    requires IsWord(k)
    ensures MarkerLength(MarkerHead + k + (":" + tag) + x, tag)
      == Some(11 + |k| + 1 + |tag| + (if x != [] && x[0] == '\n' then 1 else 0))
  {
    var s := MarkerHead + k + (":" + tag) + x;
    assert MarkerAt(s, k, tag);
    assert x != [] ==> s[|MarkerHead + k + (":" + tag)|] == x[0];
  }

  /** Removing the marker at the front leaves what follows it, less one leading newline. */
  lemma {:induction false} RemoveMarkerFront(k: string, tag: string, x: string)
    requires IsWord(k)
    ensures RemoveFirstMarker(MarkerHead + k + (":" + tag) + x, tag) == DropNewline(x)
  {
    var s := MarkerHead + k + (":" + tag) + x;
    var m := |MarkerHead + k + (":" + tag)|;
    MarkerLengthOfMarker(k, tag, x);
    assert s[m..] == x;
    if x != [] && x[0] == '\n' {
      assert s[m + 1..] == x[1..];
    }
  }

  /** The start marker at the front of a section is removed together with the newline after it. */
  lemma {:induction false} RemoveStartMarker(k: string, b: string)
    requires IsWord(k)
    ensures RemoveFirstMarker(StartMarker(k) + b + EndMarker(k), "START") == DropNewline(b) + EndMarker(k)
  {
    var x := b + EndMarker(k);
    assert StartMarker(k) + b + EndMarker(k) == MarkerHead + k + (":" + "START") + x;
    RemoveMarkerFront(k, "START", x);
    MarkerHashes(k);
    DropNewlineAppend(b, EndMarker(k));
  }

  /** An end marker at the very end is removed whole. */
  lemma {:induction false} RemoveEndMarker(k: string)
    requires IsWord(k)
    ensures RemoveFirstMarker(EndMarker(k), "END") == []
  {
    assert EndMarker(k) == MarkerHead + k + (":" + "END") + [];
    RemoveMarkerFront(k, "END", []);
  }

  /** A current-provider section whose body holds no end marker keeps exactly its body,
      minus one leading newline: `START\nfoo\nEND` becomes `foo\n`. The body may hold
      start markers of other regions; they stay. */
  lemma {:induction false} UnwrapPlainBody(k: string, b: string)
    requires IsWord(k) && EndFree(b)
    ensures Unwrap(Section(k, b)) == DropNewline(b)
  {
    RemoveStartMarker(k, b);
    var b' := DropNewline(b);
    DropNewlineEndFree(b);
    MarkerHashes(k);
    EndFreeSkip(b', EndMarker(k));
    RemoveSkip(b', EndMarker(k), "END");
    RemoveEndMarker(k);
    assert b' + [] == b';
  }

  /** An end marker of any key at the front is removed together with one newline after it,
      even when the region's own end marker follows. */
  lemma {:induction false} RemoveForeignEnd(k1: string, k2: string, c: string)
    requires IsWord(k1) && IsWord(k2)
    ensures RemoveFirstMarker(EndMarker(k2) + c + EndMarker(k1), "END") == DropNewline(c) + EndMarker(k1)
  {
    var x := c + EndMarker(k1);
    assert EndMarker(k2) + c + EndMarker(k1) == MarkerHead + k2 + (":" + "END") + x;
    RemoveMarkerFront(k2, "END", x);
    MarkerHashes(k1);
    DropNewlineAppend(c, EndMarker(k1));
  }

  /** A leading newline can only come from the front part when that part is non-empty and
      the rest does not open with a newline. */
  lemma DropNewlineAppend(b: string, x: string)
    requires x != [] && x[0] == '#'
    ensures DropNewline(b + x) == DropNewline(b) + x
  {
    if b == [] {
      assert b + x == x;
    } else if b[0] == '\n' {
      assert (b + x)[1..] == b[1..] + x;
    }
  }

  /** As the code is written, unwrapping a region whose body holds an end marker of another
      key removes that foreign marker (the first `# PROVIDER:\w+:END`) and keeps the region's
      own end marker in the output. `b` may hold start markers, as a nested region does. */
  lemma {:induction false} UnwrapForeignEnd(k1: string, k2: string, b: string, c: string)
    requires IsWord(k1) && IsWord(k2) && EndFree(b)
    ensures Unwrap(Section(k1, b + EndMarker(k2) + c)) == DropNewline(b) + DropNewline(c) + EndMarker(k1)
  {
    var e1, e2 := EndMarker(k1), EndMarker(k2);
    var b' := DropNewline(b);
    var tail := e2 + c + e1;
    var x := RemoveFirstMarker(SegmentText(Section(k1, b + e2 + c)), "START");
    assert x == b' + tail by {
      MarkerHashes(k2);
      RemoveStartMarker(k1, b + e2 + c);
      Assoc(b, e2, c);
      DropNewlineAppend(b, e2 + c);
      assert (b' + (e2 + c)) + e1 == b' + tail;
    }
    assert RemoveFirstMarker(x, "END") == b' + (DropNewline(c) + e1) by {
      assert RemoveFirstMarker(b' + tail, "END") == b' + RemoveFirstMarker(tail, "END") by {
        DropNewlineEndFree(b);
        MarkerHashes(k2);
        assert tail[0] == '#';
        EndFreeSkip(b', tail);
        RemoveSkip(b', tail, "END");
      }
      RemoveForeignEnd(k1, k2, c);
    }
    Assoc(b', DropNewline(c), e1);
  }

  /** Rendered for its own provider, `START(k1) b END(k2) c END(k1)`, with no end marker
      in `b` and no `END(k1)` in `c`, shows `b` and `c`, each without one leading newline,
      followed by `END(k1)`: the region's own end marker survives the unwrapping. `b` may
      open a nested region, and `c` may hold anything but `END(k1)`. */
  lemma {:induction false} ForeignEndLeavesOwnEnd(k1: string, k2: string, b: string, c: string, t: string)
    requires IsWord(k1) && IsWord(k2) && k1 != k2
    requires EndFree(b) && !Occurs(EndMarker(k1), c)
    ensures FilterSections(k1, StartMarker(k1) + (b + EndMarker(k2) + c) + EndMarker(k1) + t)
      == DropNewline(b) + DropNewline(c) + EndMarker(k1) + FilterSections(k1, t)
  {
    NoMatchingEnd(k1, k2, b, c);
    FilterSection(k1, k1, b + EndMarker(k2) + c, t);
    UnwrapForeignEnd(k1, k2, b, c);
  }

  /** The unwrapping the markers' comment describes: the region's own start marker (with one
      newline after it) and its own end marker are cut off, and the whole body is kept. */
  function UnwrapOwn(g: Segment): (r: string)
    requires g.Section?
    ensures SegmentText(g) == StartMarker(g.key) + (if |g.body| > |r| then "\n" else "") + r + EndMarker(g.key)
    ensures |g.body| - 1 <= |r| <= |g.body|
    ensures |g.body| > 0 && g.body[0] == '\n' ==> r == g.body[1..]
    ensures |g.body| == 0 || g.body[0] != '\n' ==> r == g.body
  {
    var text := SegmentText(g);
    var inner := text[|StartMarker(g.key)|..|text| - |EndMarker(g.key)|];
    assert inner == g.body;
    DropNewline(inner)
  }

  /** On a body without end markers the intended unwrapping and the written one agree. */
  lemma {:induction false} UnwrapOwnAgrees(k: string, b: string)
    requires IsWord(k) && EndFree(b)
    ensures UnwrapOwn(Section(k, b)) == Unwrap(Section(k, b))
  {
    UnwrapPlainBody(k, b);
  }

  /** On a body holding a foreign end marker the intended unwrapping keeps that marker and
      drops the region's own, where the written one does the opposite. */
  lemma {:induction false} UnwrapOwnKeepsForeignEnd(k1: string, k2: string, b: string, c: string)
    requires IsWord(k1) && IsWord(k2) && EndFree(b)
    ensures UnwrapOwn(Section(k1, b + EndMarker(k2) + c)) == DropNewline(b) + EndMarker(k2) + c
    ensures Unwrap(Section(k1, b + EndMarker(k2) + c)) == DropNewline(b) + DropNewline(c) + EndMarker(k1)
  {
    var e2 := EndMarker(k2);
    MarkerHashes(k2);
    Assoc(b, e2, c);
    DropNewlineAppend(b, e2 + c);
    Assoc(DropNewline(b), e2, c);
    UnwrapForeignEnd(k1, k2, b, c);
  }

  /** The key of an end marker is determined by the text: `END(k1)` can begin `END(k2) + t`
      only when the keys are equal, since `:` is not a word character. */
  lemma {:induction false} EndKeyDetermined(k1: string, k2: string, t: string)
    requires IsWord(k1) && IsWord(k2)
    ensures EndMarker(k1) <= EndMarker(k2) + t ==> k1 == k2
  {
    var s := EndMarker(k2) + t;
    EndMarkerKey(k2, t);
    if EndMarker(k1) <= s {
      var u := s[|EndMarker(k1)|..];
      assert s == EndMarker(k1) + u;
      EndMarkerKey(k1, u);
    }
  }

  /** The key of an end marker is the word run right after the head. */
  lemma {:induction false} EndMarkerKey(k: string, t: string)
    requires IsWord(k)
    ensures WordRun((EndMarker(k) + t)[11..]) == |k|
    ensures (EndMarker(k) + t)[11..11 + |k|] == k
  {
    var s := EndMarker(k) + t;
    assert s[11..] == k + (":END" + t);
    WordRunOfWord(k, ":END" + t);
  }

  /** An end marker does not start a section: `:END` is not `:START`. */
  lemma {:induction false} EndIsNotStart(k: string, t: string)
    requires IsWord(k)
    ensures StartKey(EndMarker(k) + t).None?
  {
    var s := EndMarker(k) + t;
    assert s[..11] == MarkerHead;
    assert s[11..] == k + (":END" + t);
    WordRunOfWord(k, ":END" + t);
    assert s[11 + |k|..] == ":END" + t;
    assert (":END" + t)[1] == 'E';
  }

  /** A pattern that occurs also has its prefix occurring at the same place. */
  lemma OccursAtPrefix(s: string, pat: string, pre: string, i: nat)
    requires pre <= pat
    ensures OccursAt(s, pat, i) ==> OccursAt(s, pre, i)
  {
    if OccursAt(s, pat, i) {
      assert s[i..i + |pre|] == s[i..i + |pat|][..|pre|];
    }
  }

  /** After `START(k1) + b`, an `END(k1)` occurs nowhere in `b + END(k2) + t` when the keys
      differ and neither `b` nor `t` holds an `END(k1)`. */
  lemma {:induction false} NoMatchingEnd(k1: string, k2: string, b: string, t: string)
    requires IsWord(k1) && IsWord(k2) && k1 != k2
    requires !Occurs(EndMarker(k1), b) && !Occurs(EndMarker(k1), t)
    ensures !Occurs(EndMarker(k1), b + EndMarker(k2) + t)
  {
    var e1 := EndMarker(k1);
    var e2 := EndMarker(k2);
    var rest := b + e2 + t;
    MarkerHashes(k1);
    MarkerHashes(k2);
    forall j: nat | j <= |rest| ensures !OccursAt(rest, e1, j) {
      if j < |b| {
        assert rest == b + (e2 + t);
        OccursInPrefix(b, e2 + t, e1, j);
        assert !OccursAt(b, e1, j);
      } else if j == |b| {
        assert rest[|b|..] == e2 + t;
        assert OccursAt(rest, e1, j) ==> e1 <= e2 + t by {
          if j + |e1| <= |rest| {
            assert (e2 + t)[..|e1|] == rest[j..j + |e1|];
          }
        }
        EndKeyDetermined(k1, k2, t);
      } else if j < |b| + |e2| {
        assert rest[j] == e2[j - |b|];
      } else {
        var o := |b| + |e2|;
        assert rest[o..] == t;
        assert OccursAt(rest, e1, j) ==> OccursAt(t, e1, j - o) by {
          if j + |e1| <= |rest| {
            assert rest[j..j + |e1|] == t[j - o..j - o + |e1|];
          }
        }
        assert !OccursAt(t, e1, j - o);
      }
    }
  }

  /** A start marker with no matching end marker after it is literal text. */
  lemma {:induction false} UnclosedStartStays(current: string, k: string, rest: string)
    requires IsWord(k) && !Occurs(EndMarker(k), rest)
    ensures FilterSections(current, StartMarker(k) + rest) == StartMarker(k) + FilterSections(current, rest)
  {
    var st := StartMarker(k);
    var s := st + rest;
    assert SectionAt(s).None? by {
      StartKeyOfMarker(k, rest);
      assert s[|st|..] == rest;
    }
    forall p | 0 <= p < |st| ensures SectionAt((st + rest)[p..]).None? {
      if p == 0 {
        assert s[0..] == s;
      } else {
        assert (st + rest)[p..][0] == st[p] by {
          MarkerHashes(k);
        }
        MarkerHashes(k);
        SectionNeedsHead((st + rest)[p..]);
      }
    }
    FilterSkip(current, st, rest);
  }

  /** Text holding no marker head, followed by a `#` or nothing, is literal text. */
  lemma {:induction false} HeadlessTextStays(current: string, b: string, u: string)
    requires !Occurs(MarkerHead, b) && (u == [] || u[0] == '#')
    ensures FilterSections(current, b + u) == b + FilterSections(current, u)
  {
    HeadFreeByAbsence(b, u);
    forall p | 0 <= p < |b| ensures SectionAt((b + u)[p..]).None? {
      SectionNeedsHead((b + u)[p..]);
    }
    FilterSkip(current, b, u);
  }

  /** An end marker on its own is literal text. */
  lemma {:induction false} LoneEndStays(current: string, k: string, t: string)
    requires IsWord(k)
    ensures FilterSections(current, EndMarker(k) + t) == EndMarker(k) + FilterSections(current, t)
  {
    var e := EndMarker(k);
    MarkerHashes(k);
    EndIsNotStart(k, t);
    forall p | 0 <= p < |e| ensures SectionAt((e + t)[p..]).None? {
      if p == 0 {
        assert (e + t)[0..] == e + t;
      } else {
        assert (e + t)[p..][0] == e[p];
        SectionNeedsHead((e + t)[p..]);
      }
    }
    FilterSkip(current, e, t);
  }

  /** An unclosed start marker followed by text with no marker head is literal text up
      to the next `#`. */
  lemma {:induction false} UnclosedStartAndBodyStay(current: string, k: string, b: string, u: string)
    requires IsWord(k) && !Occurs(EndMarker(k), b + u)
    requires !Occurs(MarkerHead, b) && (u == [] || u[0] == '#')
    ensures FilterSections(current, StartMarker(k) + (b + u)) == StartMarker(k) + (b + FilterSections(current, u))
  {
    UnclosedStartStays(current, k, b + u);
    HeadlessTextStays(current, b, u);
  }

  /** Start and end markers whose keys differ never form a section and stay as literal
      text, provided no later end marker repeats the start key. */
  lemma {:induction false} MismatchedMarkersStay(current: string, k1: string, k2: string, b: string, t: string)
    requires IsWord(k1) && IsWord(k2) && k1 != k2
    requires !Occurs(MarkerHead, b) && !Occurs(EndMarker(k1), t)
    ensures FilterSections(current, StartMarker(k1) + (b + (EndMarker(k2) + t)))
      == StartMarker(k1) + (b + (EndMarker(k2) + FilterSections(current, t)))
  {
    var e2 := EndMarker(k2);
    HeadlessEndFree(b);
    NoMatchingEnd(k1, k2, b, t);
    Assoc(b, e2, t);
    MarkerHashes(k2);
    UnclosedStartAndBodyStay(current, k1, b, e2 + t);
    LoneEndStays(current, k2, t);
  }

  // ----- The AWS-to-Azure literal table -----

  /** One row of the rewrite table: every occurrence of `pattern` becomes `replacement`. */
  datatype Rewrite = Rewrite(pattern: string, replacement: string)

  /** The provider for which the table is applied. */
  const RewriteTarget: string := "azure"

  /** The table, in the order the rewrites are applied. */
  const AzureRewrites: seq<Rewrite> := [
    Rewrite("karpenter.k8s.aws/instance-category", "karpenter.azure.com/sku-family"),
    Rewrite("karpenter.k8s.aws/instance-family", "karpenter.azure.com/sku-name"),
    Rewrite("karpenter.k8s.aws/instance-generation", "karpenter.azure.com/sku-version"),
    Rewrite("[\"c\", \"m\", \"r\"]", "[\"D\", \"E\", \"F\"]"),
    Rewrite("[\"m5\",\"m5d\",\"c5\",\"c5d\",\"c4\",\"r4\"]",
            "[\"Standard_D2s_v3\", \"Standard_D4s_v3\", \"Standard_E2s_v3\"]"),
    Rewrite("[\"nitro\"]", "[\"v3\", \"v4\", \"v5\"]"),
    Rewrite("us-west-2a", "eastus-1"),
    Rewrite("us-west-2b", "eastus-2")
  ]

  predicate NonEmptyPatterns(rows: seq<Rewrite>) {
    forall i :: 0 <= i < |rows| ==> |rows[i].pattern| > 0
  }

  /** The rewrites applied one after the other, each to the whole text. */
  function ApplyRewrites(rows: seq<Rewrite>, code: string): string
    requires NonEmptyPatterns(rows)
  {
    if rows == [] then code
    else ApplyRewrites(rows[1..], ReplaceAll(code, rows[0].pattern, rows[0].replacement))
  }

  /** The literal step: the table for `azure`, nothing for any other provider. */
  function RewriteForProvider(current: string, code: string): string {
    if current == RewriteTarget then
      AzurePatternsNonEmpty();
      ApplyRewrites(AzureRewrites, code)
    else code
  }

  /** Every pattern of the table is non-empty. */
  lemma {:induction false} AzurePatternsNonEmpty()
    ensures NonEmptyPatterns(AzureRewrites)
  {
    forall i | 0 <= i < |AzureRewrites| ensures |AzureRewrites[i].pattern| > 0 {
      assert AzureRewrites[i].pattern[0] in "k[u";
    }
  }

  /** Text holding none of the table's patterns passes through the table unchanged. */
  lemma {:induction false} ApplyRewritesAbsent(rows: seq<Rewrite>, code: string)
    requires NonEmptyPatterns(rows)
    requires forall i :: 0 <= i < |rows| ==> !Occurs(rows[i].pattern, code)
    ensures ApplyRewrites(rows, code) == code
  {
    if rows != [] {
      ReplaceAllAbsent(code, rows[0].pattern, rows[0].replacement);
      ApplyRewritesAbsent(rows[1..], code);
    }
  }

  // ----- The component -----

  /** What the component renders: a code block with its language. */
  datatype CodeBlock = CodeBlock(language: string, code: string)

  /** `showForProvider && showForProvider !== currentProvider`: the block is hidden. */
  predicate Hidden(showForProvider: Option<string>, current: string) {
    showForProvider.Some? && showForProvider.value != "" && showForProvider.value != current
  }

  /** `<ProviderCodeBlock>`: `None` is `null`. The current provider is the configured
      default (`defaultProvider || 'azure'`), not the reader's selection; the record is
      `(customFields?.providers || {})[current]`. */
  function RenderCodeBlock(cf: CustomFields, language: Option<string>, children: string,
                           showForProvider: Option<string>): (r: Option<CodeBlock>)
    ensures r.None? <==> Hidden(showForProvider, DefaultProvider(cf))
    ensures r.Some? ==> r.value.language == language.GetOr("yaml")
  {
    var current := DefaultProvider(cf);
    if Hidden(showForProvider, current) then None
    else
      var substituted := Substitute(Record(Providers(cf), current), children);
      var filtered := FilterSections(current, substituted);
      Some(CodeBlock(language.GetOr("yaml"), RewriteForProvider(current, filtered)))
  }

  /** Identity law: code with no `{{word}}` token, no `# PROVIDER:` marker and none of the
      table's patterns is shown exactly as written, whatever the provider. */
  lemma CodeBlockIdentity(cf: CustomFields, language: Option<string>, children: string,
                          showForProvider: Option<string>)
    requires !Hidden(showForProvider, DefaultProvider(cf))
    requires !HasToken(children)
    requires !Occurs(MarkerHead, children)
    requires forall i :: 0 <= i < |AzureRewrites| ==> !Occurs(AzureRewrites[i].pattern, children)
    ensures RenderCodeBlock(cf, language, children, showForProvider)
      == Some(CodeBlock(language.GetOr("yaml"), children))
  {
    var current := DefaultProvider(cf);
    SubstituteWithoutTokens(Record(Providers(cf), current), children);
    FilterWithoutMarkers(current, children);
    AzurePatternsNonEmpty();
    ApplyRewritesAbsent(AzureRewrites, children);
  }

  /** The section filter runs on the substituted text: with a provider that has no record,
      substitution is the identity and the block is just filtered and rewritten. */
  lemma CodeBlockWithoutRecord(cf: CustomFields, language: Option<string>, children: string)
    requires DefaultProvider(cf) !in Providers(cf)
    ensures RenderCodeBlock(cf, language, children, None)
      == Some(CodeBlock(language.GetOr("yaml"),
           RewriteForProvider(DefaultProvider(cf), FilterSections(DefaultProvider(cf), children))))
  {
    SubstituteWithoutRecord(children);
  }
}

=== FILE: provider_content.dfy ===
/** `src/components/ProviderContent/index.tsx`: children shown only when the current
    provider is one of a comma-separated list of keys. */
module ProviderContent {
  import opened Wrappers
  import opened JsText
  import opened ProviderContext

  /** `entries.map(p => p.trim())`. */
  function Trimmed(entries: seq<string>): seq<string>
    decreases |entries|
  {
    if entries == [] then [] else [Trim(entries[0])] + Trimmed(entries[1..])
  }

  /** `providers.split(',').map(p => p.trim())`. */
  function ProviderList(providers: string): seq<string> {
    Trimmed(Split(providers, ','))
  }

  /** The children when the current provider is listed, nothing otherwise. */
  function Render<T>(context: ContextValue, providers: string, children: T): (r: Option<T>)
    ensures r.Some? <==> context.currentProvider in ProviderList(providers)
    ensures r.Some? ==> r.value == children
  {
    if context.currentProvider in ProviderList(providers) then Some(children) else None
  }

  /** `Trimmed` keeps the length and trims entry by entry. */
  lemma {:induction false} TrimmedAt(entries: seq<string>)
    ensures |Trimmed(entries)| == |entries|
    ensures forall i :: 0 <= i < |entries| ==> Trimmed(entries)[i] == Trim(entries[i])
    decreases |entries|
  {
    if entries != [] {
      TrimmedAt(entries[1..]);
    }
  }

  lemma {:induction false} TrimmedAppend(x: seq<string>, y: seq<string>)
    ensures Trimmed(x + y) == Trimmed(x) + Trimmed(y)
    decreases |x|
  {
    if x == [] {
      assert x + y == y;
    } else {
      assert (x + y)[1..] == x[1..] + y;
      TrimmedAppend(x[1..], y);
    }
  }

  /** Entries with the same trimmed forms give the same keys. */
  lemma {:induction false} TrimmedPointwise(x: seq<string>, y: seq<string>)
    requires |x| == |y|
    requires forall i :: 0 <= i < |x| ==> Trim(x[i]) == Trim(y[i])
    ensures Trimmed(x) == Trimmed(y)
    decreases |x|
  {
    if x != [] {
      assert Trim(x[0]) == Trim(y[0]);
      TrimmedPointwise(x[1..], y[1..]);
    }
  }

  /** A list written by joining comma-free entries is shown exactly when some entry, trimmed,
      is the current provider. */
  lemma {:induction false} ShownIffListed<T>(context: ContextValue, entries: seq<string>, children: T)
    requires |entries| > 0
    requires forall i :: 0 <= i < |entries| ==> ',' !in entries[i]
    ensures Render(context, Join(entries, ','), children).Some? <==>
      exists i :: 0 <= i < |entries| && Trim(entries[i]) == context.currentProvider
  {
    SplitJoin(entries, ',');
    TrimmedAt(entries);
    var keys := Trimmed(entries);
    if context.currentProvider in keys {
      var i :| 0 <= i < |keys| && keys[i] == context.currentProvider;
      assert Trim(entries[i]) == context.currentProvider;
    }
  }

  /** The keys of a joined list are its entries, trimmed. */
  lemma {:induction false} JoinedList(entries: seq<string>)
    requires |entries| > 0
    requires forall i :: 0 <= i < |entries| ==> ',' !in entries[i]
    ensures ProviderList(Join(entries, ',')) == Trimmed(entries)
  {
    SplitJoin(entries, ',');
  }

  /** White space around an entry never matters. */
  lemma {:induction false} PaddingIrrelevant<T>(context: ContextValue, entries: seq<string>, left: seq<string>, right: seq<string>, children: T)
    requires |entries| > 0 && |left| == |entries| && |right| == |entries|
    requires forall i :: 0 <= i < |entries| ==> ',' !in entries[i] && AllSpace(left[i]) && AllSpace(right[i])
    ensures var padded := seq(|entries|, i requires 0 <= i < |entries| => left[i] + entries[i] + right[i]);
      Render(context, Join(padded, ','), children) == Render(context, Join(entries, ','), children)
  {
    var padded := seq(|entries|, i requires 0 <= i < |entries| => left[i] + entries[i] + right[i]);
    forall i | 0 <= i < |entries|
      ensures ',' !in padded[i] && Trim(padded[i]) == Trim(entries[i])
    {
      TrimPadded(left[i], entries[i], right[i]);
      CommaNotSpace(left[i]);
      CommaNotSpace(right[i]);
    }
    TrimmedPointwise(padded, entries);
    JoinedList(padded);
    JoinedList(entries);
  }

  lemma {:induction false} CommaNotSpace(s: string)
    requires AllSpace(s)
    ensures ',' !in s
  {
    assert !IsJsSpace(',');
  }

  /** Only the set of trimmed entries matters: neither their order nor repetitions. */
  lemma {:induction false} OrderAndRepetitionIrrelevant<T>(context: ContextValue, a: seq<string>, b: seq<string>, children: T)
    requires |a| > 0 && |b| > 0
    requires forall i :: 0 <= i < |a| ==> ',' !in a[i]
    requires forall i :: 0 <= i < |b| ==> ',' !in b[i]
    requires forall x :: x in Trimmed(a) <==> x in Trimmed(b)
    ensures Render(context, Join(a, ','), children) == Render(context, Join(b, ','), children)
  {
    JoinedList(a);
    JoinedList(b);

  }

  /** An empty entry (as in `"aws,,azure"`) never shows anything for a non-empty key. */
  lemma {:induction false} EmptyEntryIrrelevant<T>(context: ContextValue, a: seq<string>, b: seq<string>, children: T)
    requires |a + b| > 0 && context.currentProvider != ""
    requires forall i :: 0 <= i < |a + b| ==> ',' !in (a + b)[i]
    ensures Render(context, Join(a + [""] + b, ','), children) == Render(context, Join(a + b, ','), children)
  {
    var with := a + [""] + b;
    forall i | 0 <= i < |with|
      ensures ',' !in with[i]
    {
      if i < |a| {
        assert with[i] == (a + b)[i];
      } else if i > |a| {
        assert with[i] == (a + b)[i - 1];
      }
    }
    JoinedList(with);
    JoinedList(a + b);
    TrimmedWithEmpty(a, b);
  }

  lemma {:induction false} TrimmedWithEmpty(a: seq<string>, b: seq<string>)
    ensures Trimmed(a + [""] + b) == Trimmed(a) + [""] + Trimmed(b)
    ensures Trimmed(a + b) == Trimmed(a) + Trimmed(b)
  {
    TrimmedAppend(a + [""], b);
    TrimmedAppend(a, [""]);
    TrimmedAppend(a, b);
    TrimmedEmptyEntry("");
  }

  lemma {:induction false} TrimmedEmptyEntry(e: string)
    requires e == []
    ensures Trimmed([e]) == [e]
  {
    assert Trim(e) == e;
    assert [e][1..] == [];
  }
}

/** `src/components/ProviderContent/ProviderContent.tsx`: the same gate, accepting either a
    comma-separated string or an array of keys; an array is used as given, untrimmed. */
module ProviderContentList {
  import opened Wrappers
  import opened JsText
  import opened ProviderContext
  import ProviderContent

  datatype Providers = Text(s: string) | List(items: seq<string>)

  function ProviderList(providers: Providers): seq<string> {
    match providers
    case List(items) => items
    case Text(s) => ProviderContent.ProviderList(s)
  }

  function Render<T>(context: ContextValue, providers: Providers, children: T): (r: Option<T>)
    ensures r.Some? <==> context.currentProvider in ProviderList(providers)
    ensures r.Some? ==> r.value == children
  {
    if context.currentProvider !in ProviderList(providers) then None else Some(children)
  }

  /** Given a string, this component decides exactly as the string-only one does. */
  lemma {:induction false} TextAgrees<T>(context: ContextValue, s: string, children: T)
    ensures Render(context, Text(s), children) == ProviderContent.Render(context, s, children)
  {
  }

  /** An array of trimmed, comma-free keys decides as the same keys written with commas. */
  lemma {:induction false} ListAgreesWithJoined<T>(context: ContextValue, keys: seq<string>, children: T)
    requires |keys| > 0
    requires forall i :: 0 <= i < |keys| ==> ',' !in keys[i] && Trim(keys[i]) == keys[i]
    ensures Render(context, List(keys), children) == Render(context, Text(Join(keys, ',')), children)
  {
    ProviderContent.JoinedList(keys);
    ProviderContent.TrimmedAt(keys);
  }

  /** Array entries are not trimmed: `[" aws"]` hides what `" aws"` shows. */
  lemma {:induction false} ListEntriesNotTrimmed<T>(providers: map<string, JsValue.Value>, key: string, pad: string, children: T)
    requires key != [] && ',' !in key && !IsJsSpace(key[0]) && !IsJsSpace(key[|key| - 1])
    requires pad != [] && AllSpace(pad)
    ensures Render(ContextValue(key, providers), List([pad + key]), children) == None
    ensures Render(ContextValue(key, providers), Text(pad + key), children) == Some(children)
  {
    ProviderContent.CommaNotSpace(pad);
    ProviderContent.JoinedList([pad + key]);
    ProviderContent.TrimmedAt([pad + key]);
    TrimPadded(pad, key, "");
    assert pad + key + "" == pad + key;
    assert TrimStart(key) == key;
    assert TrimEnd(key) == key;
    assert (pad + key)[0] == pad[0];
    assert pad + key != key;
  }
}
=== FILE: provider_context.dfy ===
/** `ProviderContext`: the reader's provider selection. `ProviderProvider` starts from the
    configured default, adopts a stored key on mount when it names a registered provider,
    and `setProvider` accepts only registered keys; `useProvider` fails outside a provider. */
module ProviderContext {
  import opened Wrappers
  import opened JsValue
  import opened SiteConfig
  import opened Browser

  /** What `useProvider` hands to consumers. */
  datatype ContextValue = ContextValue(currentProvider: string, providers: Registry)

  /** The message `useProvider` throws with. */
  const OutsideProvider: string := "useProvider must be used within a ProviderProvider"

  /** `useProvider()`: the enclosing context value, or the thrown error when there is none. */
  function UseProvider(context: Option<ContextValue>): (r: Result<ContextValue, string>)
    ensures context.None? <==> r == Failure(OutsideProvider)
    ensures context.Some? ==> r == Success(context.value)
  {
    match context
    case Some(c) => Success(c)
    case None => Failure(OutsideProvider)
  }

  /** First render of `ProviderProvider`: `useState(defaultProvider)` on the page as it is. */
  function Mount(cf: CustomFields, page: Page): (s: Selection)
    ensures s.current == DefaultProvider(cf) && s.page == page
  {
    Selection(DefaultProvider(cf), page)
  }

  /** The stored key, when it is non-empty and names a registered provider. */
  function StoredChoice(cf: CustomFields, page: Page): Option<string> {
    var saved := GetItem(page, StorageKey);
    if saved.Some? && saved.value != "" && Registered(Providers(cf), saved.value) then saved else None
  }

  /** The mount effect: adopt a valid stored key and mark the body with it, or mark the body
      with the default and leave the selection alone. Storage and events are untouched. */
  function Init(cf: CustomFields, s: Selection): (r: Selection)
    ensures r.page.storage == s.page.storage && r.page.events == s.page.events
    ensures StoredChoice(cf, s.page).Some? ==>
      r.current == StoredChoice(cf, s.page).value
      && r.page.bodyAttributes == s.page.bodyAttributes[BodyAttribute := r.current]
    ensures StoredChoice(cf, s.page).None? ==>
      r.current == s.current
      && r.page.bodyAttributes == s.page.bodyAttributes[BodyAttribute := DefaultProvider(cf)]
  {
    match StoredChoice(cf, s.page)
    case Some(saved) => Selection(saved, SetAttribute(s.page, BodyAttribute, saved))
    case None => Selection(s.current, SetAttribute(s.page, BodyAttribute, DefaultProvider(cf)))
  }

  /** `setProvider(provider)`: an unregistered key changes nothing at all; a registered one
      becomes current, is stored, marks the body and is announced by exactly one event. */
  function SetProvider(cf: CustomFields, s: Selection, provider: string): (r: Selection)
    ensures !Registered(Providers(cf), provider) ==> r == s
    ensures Registered(Providers(cf), provider) ==>
      && r.current == provider
      && GetItem(r.page, StorageKey) == Some(provider)
      && r.page.bodyAttributes == s.page.bodyAttributes[BodyAttribute := provider]
      && r.page.events == s.page.events + [CustomEvent(ProviderChanged, provider)]
  {
    if Registered(Providers(cf), provider) then Selection(provider, Announce(s.page, provider)) else s
  }

  /** The value the provider passes down. */
  function ContextOf(cf: CustomFields, s: Selection): ContextValue {
    ContextValue(s.current, Providers(cf))
  }

  /** The transitions of the store. */
  datatype Action = InitEffect | Select(provider: string)

  function Step(cf: CustomFields, s: Selection, a: Action): Selection {
    match a
    case InitEffect => Init(cf, s)
    case Select(p) => SetProvider(cf, s, p)
  }

  function Run(cf: CustomFields, s: Selection, actions: seq<Action>): Selection
    decreases |actions|
  {
    if actions == [] then s else Run(cf, Step(cf, s, actions[0]), actions[1..])
  }

  /** Every transition keeps the current key registered. */
  lemma {:induction false} StepKeepsRegistered(cf: CustomFields, s: Selection, a: Action)
    requires Registered(Providers(cf), s.current)
    ensures Registered(Providers(cf), Step(cf, s, a).current)
  {
  }

  /** With a registered default, the current key is registered after any sequence of mount
      effects and selections, whatever the storage held. */
  lemma {:induction false} RunKeepsRegistered(cf: CustomFields, page: Page, actions: seq<Action>)
    requires Registered(Providers(cf), DefaultProvider(cf))
    ensures Registered(Providers(cf), Run(cf, Mount(cf, page), actions).current)
  {
    RunFromRegistered(cf, Mount(cf, page), actions);
  }

  lemma {:induction false} RunFromRegistered(cf: CustomFields, s: Selection, actions: seq<Action>)
    requires Registered(Providers(cf), s.current)
    ensures Registered(Providers(cf), Run(cf, s, actions).current)
    decreases |actions|
  {
    if actions != [] {
      StepKeepsRegistered(cf, s, actions[0]);
      RunFromRegistered(cf, Step(cf, s, actions[0]), actions[1..]);
    }
  }

  /** Running the mount effect twice, with storage unchanged in between, changes nothing more. */
  lemma {:induction false} InitIdempotent(cf: CustomFields, s: Selection)
    ensures Init(cf, Init(cf, s)) == Init(cf, s)
  {
    assert StoredChoice(cf, Init(cf, s).page) == StoredChoice(cf, s.page);
  }

  /** Selecting a registered key and then reloading the page (a fresh mount on the same
      storage, then the mount effect) gives that key back: the choice persists. */
  lemma {:induction false} SelectionPersists(cf: CustomFields, s: Selection, provider: string, bodyAfterReload: map<string, string>)
    requires Registered(Providers(cf), provider) && provider != ""
    ensures var reloaded := SetProvider(cf, s, provider).page.(bodyAttributes := bodyAfterReload, events := []);
      Init(cf, Mount(cf, reloaded)).current == provider
  {
  }

  /** With the site's configuration a stored `"aws"` is adopted on mount, while a stored
      `"gcp"` leaves the reader on `"azure"` and selecting `"gcp"` later changes nothing. */
  lemma {:induction false} KarpenterScenario(page: Page, stored: string)
    requires GetItem(page, StorageKey) == Some(stored)
    ensures stored == "aws" ==> Init(KarpenterFields, Mount(KarpenterFields, page)).current == "aws"
    ensures stored == "gcp" ==> Init(KarpenterFields, Mount(KarpenterFields, page)).current == "azure"
    ensures var s := Init(KarpenterFields, Mount(KarpenterFields, page));
      SetProvider(KarpenterFields, s, "gcp") == s
  {
    KarpenterDefaultRegistered();
  }
}

=== FILE: provider_switcher.dfy ===
/** `src/components/ProviderSwitcher/index.tsx`: a drop-down with one entry per configured
    provider. Unlike `ProviderContext` it keeps its own selection, starting at `"azure"`,
    and validates nothing: a stored key and a clicked key are taken as they are. */
module ProviderSwitcher {
  import opened Wrappers
  import opened JsValue
  import opened SiteConfig
  import opened Browser
  import ProviderContext

  /** The key the switcher starts from and falls back to. */
  const InitialProvider: string := "azure"

  /** One menu entry: the provider key it selects and whether it is marked active. */
  datatype Entry = Entry(key: string, active: bool)

  /** First render: `useState('azure')`. */
  function Mount(page: Page): (s: Selection)
    ensures s.current == InitialProvider && s.page == page
  {
    Selection(InitialProvider, page)
  }

  /** The mount effect: the stored key when non-empty, else `"azure"`, becomes current and marks
      the body; storage and events are untouched. */
  function Init(s: Selection): (r: Selection)
    ensures r.page.storage == s.page.storage && r.page.events == s.page.events
    ensures r.page.bodyAttributes == s.page.bodyAttributes[BodyAttribute := r.current]
    ensures r.current != ""
    ensures GetItem(s.page, StorageKey).Some? && GetItem(s.page, StorageKey).value != "" ==>
      r.current == GetItem(s.page, StorageKey).value
    ensures GetItem(s.page, StorageKey).None? || GetItem(s.page, StorageKey).value == "" ==>
      r.current == InitialProvider
  {
    var saved := GetItem(s.page, StorageKey);
    var provider := if saved.Some? && saved.value != "" then saved.value else InitialProvider;
    Selection(provider, SetAttribute(s.page, BodyAttribute, provider))
  }

  /** A click on an entry: the key becomes current, is stored, marks the body and is announced,
      whatever it is. */
  function HandleProviderChange(s: Selection, provider: string): (r: Selection)
    ensures r.current == provider
    ensures GetItem(r.page, StorageKey) == Some(provider)
    ensures r.page.bodyAttributes == s.page.bodyAttributes[BodyAttribute := provider]
    ensures r.page.events == s.page.events + [CustomEvent(ProviderChanged, provider)]
  {
    Selection(provider, Announce(s.page, provider))
  }

  /** `order` lists the registry's keys once each, in `Object.entries` order. */
  predicate KeyOrder(order: seq<string>, reg: Registry) {
    (forall i, j :: 0 <= i < j < |order| ==> order[i] != order[j])
    && reg.Keys == set k | k in order
  }

  /** The menu: nothing without a configured registry, else one entry per key in order, the one
      equal to the current key marked active. */
  function Entries(cf: CustomFields, order: seq<string>, current: string): (r: Option<seq<Entry>>)
    requires cf.providers.Some? ==> KeyOrder(order, cf.providers.value)
    ensures cf.providers.None? <==> r.None?
    ensures r.Some? ==> |r.value| == |order|
    ensures r.Some? ==> forall i :: 0 <= i < |order| ==> r.value[i].key == order[i] && r.value[i].key in cf.providers.value
    ensures r.Some? ==> forall i :: 0 <= i < |order| ==> (r.value[i].active <==> order[i] == current)
  {
    match cf.providers
    case None => None
    case Some(reg) => Some(seq(|order|, i requires 0 <= i < |order| => Entry(order[i], order[i] == current)))
  }

  /** Exactly one entry is active when the current key is configured, none otherwise, and
      the active entry is the current key's. */
  lemma {:induction false} OneActiveEntry(cf: CustomFields, order: seq<string>, current: string)
    requires cf.providers.Some? && KeyOrder(order, cf.providers.value)
    ensures var es := Entries(cf, order, current).value;
      && (current in cf.providers.value <==> exists i :: 0 <= i < |es| && es[i].active)
      && (forall i, j :: 0 <= i < |es| && 0 <= j < |es| && es[i].active && es[j].active ==> i == j)
      && (forall i :: 0 <= i < |es| && es[i].active ==> es[i].key == current)
  {
    var es := Entries(cf, order, current).value;
    assert forall i :: 0 <= i < |es| ==> (es[i].active <==> order[i] == current);
    if current in cf.providers.value {
      var i :| 0 <= i < |order| && order[i] == current;
      assert es[i].active;
    }
  }

  /** Running the mount effect twice, storage unchanged, changes nothing more. */
  lemma {:induction false} InitIdempotent(s: Selection)
    ensures Init(Init(s)) == Init(s)
  {
  }

  /** On a registered key the switcher and `setProvider` leave the same page and selection. */
  lemma {:induction false} AgreesWithContext(cf: CustomFields, s: Selection, provider: string)
    requires Registered(Providers(cf), provider)
    ensures HandleProviderChange(s, provider) == ProviderContext.SetProvider(cf, s, provider)
  {
  }

  /** On an unregistered key they part ways: the switcher adopts and announces it while
      `setProvider` ignores it. */
  lemma {:induction false} AcceptsUnregistered(cf: CustomFields, s: Selection, provider: string)
    requires !Registered(Providers(cf), provider)
    ensures HandleProviderChange(s, provider).current == provider
    ensures ProviderContext.SetProvider(cf, s, provider) == s
  {
  }

  /** A stale stored key (say `"gcp"`, no longer configured) is adopted by the switcher on mount
      while the context keeps the configured default. */
  lemma {:induction false} StaleStoredKey(page: Page, key: string)
    requires GetItem(page, StorageKey) == Some(key) && key != ""
    requires !Registered(KarpenterRegistry, key)
    ensures Init(Mount(page)).current == key
    ensures ProviderContext.Init(KarpenterFields, ProviderContext.Mount(KarpenterFields, page)).current == "azure"
  {
    KarpenterDefaultRegistered();
  }
}

=== FILE: provider_variable.dfy ===
/** `src/components/ProviderVariable.tsx`: a dotted path looked up in the configured default
    provider's record, read straight from the site configuration. */
module ProviderVariableConfig {
  import opened Wrappers
  import opened JsText
  import opened JsValue
  import opened SiteConfig

  /** The lookup loop: every segment indexes a value that is an object; meeting anything else
      (a string, or nothing) ends the walk with `undefined`. */
  function Walk(v: Option<Value>, parts: seq<string>): Option<Value>
    decreases |parts|
  {
    if parts == [] then v
    else if v.Some? && IsObject(v.value) then Walk(Member(v.value, parts[0]), parts[1..])
    else None
  }

  /** Walking a concatenated path is walking the first part, then the rest from there. */
  lemma {:induction false} WalkAppend(v: Option<Value>, p: seq<string>, q: seq<string>)
    ensures Walk(v, p + q) == Walk(Walk(v, p), q)
    decreases |p|
  {
    if p == [] {
      assert p + q == q;
    } else if v.Some? && IsObject(v.value) {
      assert (p + q)[1..] == p[1..] + q;
      WalkAppend(Member(v.value, p[0]), p[1..], q);
    } else {
      WalkFromNothing(q);
    }
  }

  /** Once the walk has lost its value it never finds one again. */
  lemma {:induction false} WalkFromNothing(parts: seq<string>)
    ensures Walk(None, parts).None?
    decreases |parts|
  {
    if parts != [] {
      WalkFromNothing(parts[1..]);
    }
  }

  /** The shown text: the value found when it is truthy, else a non-empty fallback, else the
      path in braces. */
  function Display(cf: CustomFields, path: string, fallback: Option<string>): (r: Value)
    ensures Truthy(r)
    ensures var found := Walk(Record(Providers(cf), DefaultProvider(cf)), Split(path, '.'));
      if found.Some? && Truthy(found.value) then r == found.value
      else r.Str? && (r.s == fallback.GetOr("") || r.s == "{" + path + "}")
  {
    var found := Walk(Record(Providers(cf), DefaultProvider(cf)), Split(path, '.'));
    if found.Some? && Truthy(found.value) then found.value
    else if fallback.Some? && fallback.value != "" then Str(fallback.value)
    else Str("{" + path + "}")
  }

  /** When the default names no record, the display never depends on the path's segments:
      it is the fallback when one is given, the braced path otherwise. */
  lemma {:induction false} DisplayUnknownProvider(cf: CustomFields, path: string, fallback: Option<string>)
    requires DefaultProvider(cf) !in Providers(cf)
    ensures Display(cf, path, fallback) ==
      (if fallback.Some? && fallback.value != "" then Str(fallback.value) else Str("{" + path + "}"))
  {
    WalkFromNothing(Split(path, '.'));
  }

  /** A value configured as the empty string counts as missing. */
  lemma {:induction false} DisplayEmptyIsMissing(cf: CustomFields, path: string, fallback: Option<string>)
    requires Walk(Record(Providers(cf), DefaultProvider(cf)), Split(path, '.')) == Some(Str(""))
    ensures Display(cf, path, fallback) != Str("")
    ensures fallback == None ==> Display(cf, path, fallback) == Str("{" + path + "}")
  {
  }

  /** For any provider, a path that finds nothing truthy shows a non-empty fallback when one
      is given and the braced path otherwise. */
  lemma {:induction false} DisplayNotFound(cf: CustomFields, path: string, fallback: Option<string>)
    requires var found := Walk(Record(Providers(cf), DefaultProvider(cf)), Split(path, '.'));
      found.None? || !Truthy(found.value)
    ensures fallback.Some? && fallback.value != "" ==> Display(cf, path, fallback) == Str(fallback.value)
    ensures fallback.None? || fallback.value == "" ==> Display(cf, path, fallback) == Str("{" + path + "}")
  {
  }

  /** With the site's configuration, `instanceLabels.family` shows the Azure label key. */
  lemma {:induction false} LabelExample()
    ensures Display(KarpenterFields, "instanceLabels.family", None) == Str("karpenter.azure.com/sku-family")
  {
    LabelPath();
    LabelWalk();
  }

  lemma {:induction false} LabelPath()
    ensures Split("instanceLabels.family", '.') == ["instanceLabels", "family"]
  {
    var parts := ["instanceLabels", "family"];
    assert '.' !in parts[0] && '.' !in parts[1];
    SplitJoin(parts, '.');
    assert Join(parts, '.') == "instanceLabels.family";
  }

  lemma {:induction false} LabelWalk()
    ensures Walk(Record(Providers(KarpenterFields), DefaultProvider(KarpenterFields)), ["instanceLabels", "family"])
      == Some(Str("karpenter.azure.com/sku-family"))
  {
    KarpenterDefaultRegistered();
    var parts := ["instanceLabels", "family"];
    var labels := AzureRecord.fields["instanceLabels"];
    assert Member(AzureRecord, "instanceLabels") == Some(labels);
    assert Member(labels, "family") == Some(Str("karpenter.azure.com/sku-family"));
    assert parts[1..] == ["family"] && parts[1..][1..] == [];
    assert Walk(Some(AzureRecord), parts) == Walk(Some(labels), ["family"]);
  }
}

/** `src/components/ProviderVariable/index.tsx`: a dotted path looked up in the context's
    current provider, with an own-property test at every step and `''` as default fallback. */
module ProviderVariablePath {
  import opened Wrappers
  import opened JsText
  import opened JsValue
  import opened SiteConfig
  import opened ProviderContext
  import opened Browser
  import ProviderVariableConfig

  /** The lookup loop: each segment must be an own property of an object value; otherwise the
      component gives up. */
  function Walk(v: Value, parts: seq<string>): Option<Value>
    decreases |parts|
  {
    if parts == [] then Some(v)
    else if IsObject(v) && HasProperty(v, parts[0]) then Walk(Member(v, parts[0]).value, parts[1..])
    else None
  }

  /** The strict walk and the loose one of `ProviderVariableConfig` find the same value from
      the same record: over own data, `part in value` holds exactly when `value[part]` is
      defined. */
  lemma {:induction false} WalksAgree(v: Value, parts: seq<string>)
    ensures Walk(v, parts) == ProviderVariableConfig.Walk(Some(v), parts)
    decreases |parts|
  {
    if parts != [] && IsObject(v) {
      if HasProperty(v, parts[0]) {
        WalksAgree(Member(v, parts[0]).value, parts[1..]);
      } else {
        assert Member(v, parts[0]).None?;
        ProviderVariableConfig.WalkFromNothing(parts[1..]);
      }
    }
  }

  /** The shown value: the fallback (default `''`) when the current provider has no truthy
      record or a segment is missing, else whatever the path reaches, even an empty string. */
  function Display(context: ContextValue, path: string, fallback: Option<string>): (r: Value)
    ensures var record := Record(context.providers, context.currentProvider);
      (record.None? || !Truthy(record.value)) ==> r == Str(fallback.GetOr(""))
    ensures var record := Record(context.providers, context.currentProvider);
      record.Some? && Truthy(record.value) ==>
        r == Walk(record.value, Split(path, '.')).GetOr(Str(fallback.GetOr("")))
  {
    var record := Record(context.providers, context.currentProvider);
    if record.None? || !Truthy(record.value) then Str(fallback.GetOr(""))
    else
      match Walk(record.value, Split(path, '.'))
      case Some(v) => v
      case None => Str(fallback.GetOr(""))
  }

  /** A one-segment path shows the attribute of that name, whatever else the record holds. */
  lemma {:induction false} DisplaySingle(context: ContextValue, name: string, fallback: Option<string>)
    requires '.' !in name
    requires context.currentProvider in context.providers
    requires context.providers[context.currentProvider].Obj?
    requires name in context.providers[context.currentProvider].fields
    ensures Display(context, name, fallback) == context.providers[context.currentProvider].fields[name]
  {
    SplitWithoutSeparator(name, '.');
    var record := context.providers[context.currentProvider];
    var v := record.fields[name];
    assert Member(record, name) == Some(v);
    assert HasProperty(record, name);
    assert [name][1..] == [];
    assert Walk(record, [name]) == Walk(v, []);
  }

  /** Both path components show the same resolved value when it is truthy; they part ways on
      an empty configured string, which this one shows and the other replaces. */
  lemma {:induction false} EmptyValueContrast(cf: CustomFields, s: Selection, path: string)
    requires Registered(Providers(cf), s.current) && s.current == DefaultProvider(cf)
    requires Walk(Providers(cf)[s.current], Split(path, '.')) == Some(Str(""))
    ensures Display(ContextOf(cf, s), path, None) == Str("")
    ensures ProviderVariableConfig.Display(cf, path, None) == Str("{" + path + "}")
  {
    WalksAgree(Providers(cf)[s.current], Split(path, '.'));
  }

  lemma {:induction false} TruthyValueAgreement(cf: CustomFields, s: Selection, path: string, fallback: Option<string>)
    requires Registered(Providers(cf), s.current) && s.current == DefaultProvider(cf)
    requires var found := Walk(Providers(cf)[s.current], Split(path, '.'));
      found.Some? && Truthy(found.value)
    ensures Display(ContextOf(cf, s), path, fallback) == ProviderVariableConfig.Display(cf, path, fallback)
  {
    WalksAgree(Providers(cf)[s.current], Split(path, '.'));
  }
}

/** `src/components/ProviderVariable/ProviderVariable.tsx`: one attribute of the current
    provider's record, with the `{{name}}` placeholder when it is missing or falsy. */
module ProviderVariableName {
  import opened Wrappers
  import opened JsText
  import opened JsValue
  import opened SiteConfig
  import opened ProviderContext
  import opened Browser
  import ProviderCodeBlock

  function Display(context: ContextValue, name: string): (r: Value)
    ensures Truthy(r)
    ensures var record := Record(context.providers, context.currentProvider);
      var v := if record.Some? then Member(record.value, name) else None;
      r == (if v.Some? && Truthy(v.value) then v.value else Str(ProviderCodeBlock.TokenText(name)))
  {
    var record := Record(context.providers, context.currentProvider);
    var v := if record.Some? then Member(record.value, name) else None;
    if v.Some? && Truthy(v.value) then v.value else Str(ProviderCodeBlock.TokenText(name))
  }

  /** The inline variable shows, as text, exactly what a code block writes for the token
      `{{name}}` under the same provider: the two components agree. */
  lemma {:induction false} AgreesWithCodeBlock(context: ContextValue, name: string)
    requires IsWord(name)
    ensures ToJsString(Display(context, name)) ==
      ProviderCodeBlock.Substitute(Record(context.providers, context.currentProvider), ProviderCodeBlock.TokenText(name))
  {
    var record := Record(context.providers, context.currentProvider);
    ProviderCodeBlock.SubstituteToken(record, name, []);
    assert ProviderCodeBlock.TokenText(name) + [] == ProviderCodeBlock.TokenText(name);
    ProviderCodeBlock.SubstituteWithoutTokens(record, []);
  }
}

=== FILE: site_config.dfy ===
/** The part of the site configuration the provider components read: `customFields`,
    holding the provider registry and the configured default key, with the registry of
    the Karpenter documentation as a fixture. */
module SiteConfig {
  import opened Wrappers
  import opened JsValue

  /** Provider key to provider record. */
  type Registry = map<string, Value>

  /** `siteConfig.customFields`; either entry may be missing. */
  datatype CustomFields = CustomFields(providers: Option<Registry>, defaultProvider: Option<string>)

  /** The key every component falls back on when no default is configured. */
  const FallbackProvider: string := "azure"

  /** `customFields?.defaultProvider || 'azure'`. */
  function DefaultProvider(cf: CustomFields): (k: string)
    ensures k != ""
    ensures cf.defaultProvider.Some? && cf.defaultProvider.value != "" ==> k == cf.defaultProvider.value
    ensures cf.defaultProvider.None? || cf.defaultProvider.value == "" ==> k == FallbackProvider
  {
    match cf.defaultProvider
    case Some(d) => if d != "" then d else FallbackProvider
    case None => FallbackProvider
  }

  /** `customFields?.providers || {}`. */
  function Providers(cf: CustomFields): Registry {
    cf.providers.GetOr(map[])
  }

  /** `providers[key]`. */
  function Record(reg: Registry, key: string): Option<Value> {
    if key in reg then Some(reg[key]) else None
  }

  /** `providers[key]` is truthy: the test the selection store uses to accept a key. */
  predicate Registered(reg: Registry, key: string) {
    key in reg && Truthy(reg[key])
  }

  /** The Azure provider record of the Karpenter documentation. */
  const AzureRecord: Value := Obj(map[
    "name" := Str("Azure"),
    "icon" := Str("fab fa-microsoft"),
    "color" := Str("#0078D4"),
    "nodeClassName" := Str("AKSNodeClass"),
    "nodeClassApi" := Str("karpenter.azure.com/v1beta1"),
    "repoUrl" := Str("https://github.com/Azure/karpenter-provider-azure"),
    "instanceLabels" := Obj(map[
      "family" := Str("karpenter.azure.com/sku-family"),
      "name" := Str("karpenter.azure.com/sku-name"),
      "version" := Str("karpenter.azure.com/sku-version")]),
    "zones" := StrArray(["eastus-1", "eastus-2"]),
    "instanceTypes" := StrArray(["Standard_D2s_v3", "Standard_D4s_v3", "Standard_E2s_v3"])])

  /** The AWS provider record of the Karpenter documentation. */
  const AwsRecord: Value := Obj(map[
    "name" := Str("AWS"),
    "icon" := Str("fab fa-aws"),
    "color" := Str("#FF9900"),
    "nodeClassName" := Str("EC2NodeClass"),
    "nodeClassApi" := Str("karpenter.k8s.aws/v1beta1"),
    "repoUrl" := Str("https://github.com/aws/karpenter-provider-aws"),
    "instanceLabels" := Obj(map[
      "category" := Str("karpenter.k8s.aws/instance-category"),
      "family" := Str("karpenter.k8s.aws/instance-family"),
      "generation" := Str("karpenter.k8s.aws/instance-generation"),
      "size" := Str("karpenter.k8s.aws/instance-size")]),
    "zones" := StrArray(["us-west-2a", "us-west-2b"]),
    "instanceTypes" := StrArray(["m5.large", "m5.xlarge", "c5.large", "c5.xlarge"])])

  const KarpenterRegistry: Registry := map["azure" := AzureRecord, "aws" := AwsRecord]

  /** The keys of `KarpenterRegistry` in the order the configuration lists them. */
  const KarpenterOrder: seq<string> := ["azure", "aws"]

  const KarpenterFields: CustomFields := CustomFields(Some(KarpenterRegistry), Some("azure"))

  /** The fixture's default is a registered provider, and both records are registered. */
  lemma KarpenterDefaultRegistered()
    ensures DefaultProvider(KarpenterFields) == "azure"
    ensures Registered(Providers(KarpenterFields), "azure")
    ensures Registered(Providers(KarpenterFields), "aws")
    ensures !Registered(Providers(KarpenterFields), "gcp")
  {
  }
}

=== FILE: wrappers.dfy ===
/** Failure-compatible carriers used throughout the model: `Option` for JavaScript's
    `undefined`/`null` results and `Result` for thrown errors. */
module Wrappers {

  datatype Option<+T> = None | Some(value: T) {

    /** The wrapped value, or `default` when there is none. */
    function GetOr(default: T): T {
      match this
      case Some(v) => v
      case None => default
    }
  }

  datatype Result<+R, +E> = Success(value: R) | Failure(error: E)
}
